=== FILE: README.md ===
# ECG sample handling, modelled in Dafny

This project models the bookkeeping around the signal processing of a three-electrode
ECG system. It covers the path of one sample from the serial device to the web app and
the Parquet logger:

- the signal processor reads RA/LA/LL voltage triples from a serial line;
- it filters them (an opaque step here) and derives the six limb leads;
- it feeds lead II to a single-channel heart-rate monitor;
- it publishes a raw and a filtered record on two pub/sub topics;
- subscribers reconnect on failure, strip the topic and unpack the payload;
- the web app filters each record to the keys it shows;
- the logger batches records into numbered Parquet files.

Modules, one per file:

| module | file | models |
|---|---|---|
| `Common` | common.dfy | options, bytes, payload values, sequence helpers |
| `RingBuffer` | ring_buffer.dfy | the monitor's circular sample buffer |
| `HeartRate` | hr_monitor.dfy | `SingleChannelHRMonitor`: peak de-duplication, RR FIFO, BPM |
| `Leads` | leads.dfy | `compute_leads_from_sample` |
| `Wire` | wire.dfy | raw and filtered payloads, topics, topic framing |
| `Pipeline` | pipeline.dfy | `SignalProcessor.run`, the serial line policy, `open_serial_device` |
| `SocketStream` | socket_stream.dfy | `ecg_socket_stream` as a trace-driven state machine |
| `AppFormat` | app_format.dfy | `format_ecg_json` |
| `EcgLogger` | ecg_logger.dfy | `ECGLogger`: lead table, batching, file names, `stop` |

Python floats are `real`. Dictionaries are `map<string, Value>`. Frames are byte
sequences.

The environment enters as parameters:

- the filter engine is a function `(state, electrodes) -> (state, electrodes)`;
- `find_peaks` is a function that returns ascending in-window indices (`HeartRate.PeakOracle`);
- msgpack is a `pack`/`unpack` pair with `unpack(pack(p)) == Some(p)` (`Wire.Codec`);
- the serial device is a sequence of line outcomes;
- the socket is a trace of dial/recv outcomes and stop-event settings;
- the logger's input is the sequence of messages together with the shutdown test at each arrival.

The first heart-rate estimate needs three accepted peaks. `compute_bpm` needs two RR
intervals, and the first accepted peak records none (`HeartRate.TwoIntervalsNeeded`).

`Wire.DecodeRaw` and `Wire.DecodeFiltered` have no counterpart in the code. They are the
model's own readers of the two payloads: the round-trip lemmas and the pipeline's
publication lemmas use them to say what a subscriber gets back.

## Model

| member | source | states |
|---|---|---|
| RingBuffer.Append | signal_processing/src/filters.py:124-132 | keeps `0 <= start < capacity` and `0 <= count <= capacity`; count grows by one until full; the abstract contents become the newest `capacity` samples of the old contents plus the new one |
| RingBuffer.Empty | signal_processing/src/filters.py:111-117 | a fresh buffer of the given capacity is valid and holds nothing |
| RingBuffer.ReadyWindowFits | signal_processing/src/filters.py:137-138 | `is_ready(w)` on a valid buffer implies `w <= capacity` |
| RingBuffer.WindowIsNewest | signal_processing/src/filters.py:147-151 | the modular indices `(start+count-w+i) % capacity` read exactly the newest `w` samples, oldest first |
| RingBuffer.FeedKeepsNewest | signal_processing/src/filters.py:124-132 | after any sequence of appends to an empty buffer, its contents are the last `capacity` samples in insertion order |
| RingBuffer.OverwriteOldest | signal_processing/src/filters.py:124-151 | after `capacity + k` appends the buffer is full, the oldest `k` samples are gone, and every window returns the newest samples |
| RingBuffer.ReadWindow | signal_processing/src/filters.py:147-151 | the loop over the slots returns the values and timestamps of the newest `w` samples in order |
| HeartRate.NewMonitor | signal_processing/src/filters.py:109-122 | a new monitor has capacity `fs * buffer_duration_sec`, `min_distance = floor(0.3 fs)`, no peaks and no intervals, keeps the given `fs` and `rr_buffer_size`, and satisfies the monitor invariant |
| HeartRate.AppendSample | signal_processing/src/filters.py:124-132 | appending keeps the invariant, adds the sample as newest, and leaves peaks, intervals, `fs`, `min_distance`, `rr_buffer_size` and the buffer's capacity alone |
| HeartRate.UpdateRr | signal_processing/src/filters.py:171-177 | without a previous peak, or with an interval outside (0.25, 2.0), the intervals are unchanged; otherwise the interval is appended and the list trimmed to `rr_buffer_size` |
| HeartRate.RrFifo | signal_processing/src/filters.py:174-177 | below capacity the interval goes at the back; at capacity exactly the oldest entry is dropped and the rest keep arrival order |
| HeartRate.NoIntervalWithoutPlausiblePredecessor | signal_processing/src/filters.py:171-175 | accepting the first peak, or a peak after an implausible gap, records no interval |
| HeartRate.MinGap | signal_processing/src/filters.py:119-165 | the recency threshold `min_distance / fs`: non-negative, and times `fs` it gives back `min_distance` |
| HeartRate.NewPeakClearsAll | signal_processing/src/filters.py:162-165 | on a monitor in its invariant, passing the test against the last accepted peak is the same as being more than `min_distance / fs` after every accepted peak |
| HeartRate.AcceptPeak | signal_processing/src/filters.py:162-167 | a peak passing the recency test is appended and the invariant kept; any other peak changes nothing |
| HeartRate.AcceptPeaks | signal_processing/src/filters.py:162-167 | over the detected times, accepted peaks are only appended, each is one of the detected times, and the invariant holds; every detected time ends up accepted or within `min_distance / fs` after a peak that was already accepted when that time came up |
| HeartRate.AcceptedIffNew | signal_processing/src/filters.py:162-167 | in the loop over the detected times, time `j` is appended iff it passes the recency test against the peaks accepted from the earlier times |
| HeartRate.AcceptedPeaksOrdered | signal_processing/src/filters.py:162-167 | accepted peak times are strictly increasing and pairwise more than `min_distance / fs` apart |
| HeartRate.NeverAcceptedTwice | signal_processing/src/filters.py:162-167 | a peak already accepted, seen again in an overlapping window, leaves peaks and intervals unchanged |
| HeartRate.ComputeBpm | signal_processing/src/filters.py:179-182 | `None` iff fewer than two intervals; otherwise `bpm * sum == 60 * n`, i.e. 60 over the mean, strictly between 30 and 240 |
| HeartRate.ProcessLatestWindow | signal_processing/src/filters.py:140-169 | not ready: `None` and no state change; ready with an empty window: the `ValueError` of `np.max`; otherwise the buffer is unchanged, the invariant holds, new peaks lie in the window, the monitor is the one `AcceptPeaks` gives for the times of the peaks detected in the newest `window_size` samples, and the result is `compute_bpm` of the updated intervals |
| HeartRate.TwoIntervalsNeeded | signal_processing/src/filters.py:171-182 | on a monitor with no peaks, peaks at 0 s and 1 s give no estimate, and a third at 2 s gives exactly 60 BPM |
| HeartRate.FreshMonitorRr | signal_processing/src/filters.py:171-177 | peaks one second apart record nothing for the first and a one-second interval for each later one |
| HeartRate.DefaultMonitorFresh | signal_processing/src/filters.py:109-122 | the default monitor (100 Hz, 10 s, 8 intervals) meets the conditions of `TwoIntervalsNeeded` |
| Leads.ComputeLeads | signal_processing/src/filters.py:196-204 | exactly the keys I, II, III, aVR, aVL, aVF; I + III = II; aVR + aVL + aVF = 0; the augmented leads in terms of the limb leads |
| Leads.CommonModeRejected | signal_processing/src/filters.py:196-204 | a potential common to all three electrodes changes none of the six leads |
| Leads.SameLeadsIffCommonMode | signal_processing/src/filters.py:196-204 | two samples give equal leads iff they differ by a common-mode shift |
| Leads.LeadOrderNamesKeys | signal_processing/src/filters.py:197-204 | the six lead names are distinct and are the dictionary's keys |
| Wire.RawRoundTrip | signal_processing/src/signal_processing.py:179-184 | the raw payload reads back as the timestamp and `voltages[0]`, `[1]`, `[2]` as RA, LA, LL |
| Wire.RawPayload | signal_processing/src/signal_processing.py:179-184 | the raw payload has exactly the keys timestamp, RA, LA, LL |
| Wire.FilteredPayload | signal_processing/src/signal_processing.py:156-162 | keys timestamp and leads, plus bpm iff an estimate is given; the leads object has the keys of the derived leads |
| Wire.FilteredRoundTrip | signal_processing/src/signal_processing.py:156-162 | the filtered payload reads back as the same timestamp, the same lead values and the same optional bpm |
| Wire.StripTopic | app/src/socket_stream.py:66 | `msg[len(topic):]` with Python slicing: the empty byte string when the frame is shorter than the topic |
| Wire.StripFrame | app/src/socket_stream.py:65-67 | stripping the topic's length from `topic + payload` gives exactly `payload` |
| Wire.FrameRoundTrip | app/src/socket_stream.py:65-67 | a subscriber unpacking a stripped frame recovers the published payload |
| Wire.TopicsPrefixFree | signal_processing/src/signal_processing.py:252-255 | neither `ecg.raw` nor `ecg.filtered` is a prefix of the other (byte 4 differs) |
| Wire.SubscriptionsSeparate | signal_processing/src/signal_processing.py:252-255 | a subscription to either topic matches its own frames and never the other topic's, whatever the payload |
| Pipeline.Step | signal_processing/src/signal_processing.py:229-255 | one iteration publishes exactly two messages, raw then filtered; the raw one carries the sample; the filtered one carries the derived leads of the filtered sample and the monitor's estimate; the filter state advances |
| Pipeline.LeadTwoFedFirst | signal_processing/src/signal_processing.py:242-243 | lead II with the sample's timestamp enters the monitor's buffer as the newest sample before the estimate is taken |
| Pipeline.SameTimestamp | signal_processing/src/signal_processing.py:235-249 | both payloads of an iteration carry the sample's timestamp |
| Pipeline.Run | signal_processing/src/signal_processing.py:229-255 | the loop over the dequeued samples keeps the monitor invariant and leaves the filter in the state that filtering those samples alone, in order, reaches |
| Pipeline.RunPublishesInOrder | signal_processing/src/signal_processing.py:229-255 | over `n` dequeued samples there are `2n` publications; number `2i` is the raw record of sample `i` and `2i + 1` its filtered record, whose leads are those derived from the `i`-th output of the filter run over the samples in order |
| Pipeline.SerialStream | signal_processing/src/signal_processing.py:96-112 | discards the first line, skips empty and undecodable lines, yields every reading in order, and fails iff some later line lacks a key, yielding nothing after it |
| Pipeline.SkippedLineInvisible | signal_processing/src/signal_processing.py:100-112 | an empty or undecodable line anywhere changes nothing the reader yields |
| Pipeline.NothingAfterMissingKey | signal_processing/src/signal_processing.py:103-106 | nothing after a line missing RA, LA or LL is ever read |
| Pipeline.OpenSerialAsWritten | signal_processing/src/signal_processing.py:64-83 | the function as written: at most one attempt, on the path and then on the resolved path; `None` iff `retries < 1` |
| Pipeline.OpenSerial | signal_processing/src/signal_processing.py:44-83 | the intended loop: opens at the first attempt that succeeds, and raises iff every attempt fails on both paths; never returns `None` |
| Pipeline.OpenSerialCounterexample | signal_processing/src/signal_processing.py:64-83 | with three retries and a device that appears at the second attempt, the code raises while the intended loop opens it; with zero retries it returns `None` |
| Pipeline.AsWrittenAgreesOnFirstAttempt | signal_processing/src/signal_processing.py:64-83 | when the first attempt decides the outcome, the code and the intended loop agree |
| SocketStream.Run | app/src/socket_stream.py:43-80 | from any control point, the generator consumes only events of the trace |
| SocketStream.Stream | app/src/socket_stream.py:43-80 | the generator as called, from the top of the outer loop with the stop event clear; consumes only events of the trace |
| SocketStream.StreamYieldsAndSleeps | app/src/socket_stream.py:43-80 | as called, the generator yields exactly the decoded payloads of the frames it received, and sleeps at most once per event it consumed |
| SocketStream.SleepOncePerFailure | app/src/socket_stream.py:74-80 | sleeps happen only in the failure handler, entered once per failed dial or recv: never more sleeps than consumed events, plus one when starting inside the handler |
| SocketStream.Connect | app/src/socket_stream.py:48-57 | one connection attempt makes exactly three calls, in order: create the socket with the options, subscribe to the topic, dial the address |
| SocketStream.SocketOptions | app/src/socket_stream.py:48-50 | `recv_timeout` is passed iff a timeout was given, with that value |
| SocketStream.YieldsAreDecodedFrames | app/src/socket_stream.py:60-68 | the yielded items are exactly the unpacked, topic-stripped payloads of the received frames that unpack, in receive order, one per frame |
| SocketStream.ClosedRedialsAtOnce | app/src/socket_stream.py:43-72 | `Closed` ends the inner loop and the next attempt starts at once, without sleeping; a stop set meanwhile ends the generator at the top of the outer loop |
| SocketStream.RecvErrorSleepsThenRedials | app/src/socket_stream.py:43-80 | any other recv failure sleeps `reconnect_delay`, then makes a new attempt; a stop set during the sleep ends the generator at the next check, with no new attempt |
| SocketStream.UndecodableFrameSleepsThenRedials | app/src/socket_stream.py:43-80 | a frame that does not unpack is handled like any other error, including a stop set during the sleep |
| SocketStream.DialFailureSleepsThenRedials | app/src/socket_stream.py:43-80 | a failed dial sleeps, then makes a new attempt; a stop set during the sleep ends the generator with no new attempt |
| SocketStream.FailureRedials | app/src/socket_stream.py:43-80 | the failure handler with the stop event clear sleeps once, then reconnects, or returns at the top of the loop if the stop was set during the sleep |
| SocketStream.StopSeenAtNextCheck | app/src/socket_stream.py:44-46 | a stop set before the top-of-loop or inner-loop check ends the generator there: no further call, nothing yielded |
| SocketStream.StopAfterYield | app/src/socket_stream.py:60-68 | a stop set while the generator is suspended at `yield` ends it when resumed, after that one item and no further recv |
| SocketStream.NoRetryCap | app/src/socket_stream.py:43-80 | after any number `n` of failed dials the generator has slept `n` times and is still dialing |
| SocketStream.StopQuiesces | app/src/socket_stream.py:44-46 | once the stop event is set: no socket, dial, recv or sleep, at most the one item of a recv already in progress, and an immediate return from every check |
| SocketStream.SessionYieldsAll | app/src/socket_stream.py:60-68 | inside a connection, each published payload is yielded once, in order, after its own recv |
| SocketStream.ReconnectAfterClose | app/src/socket_stream.py:43-72 | two sessions separated by `Closed` make exactly the calls of two connections and their recvs, with no sleep |
| SocketStream.ReconnectYieldsBoth | app/src/socket_stream.py:43-72 | across that reconnect, the items are the payloads of both sessions in publication order |
| AppFormat.FormatEcgJson | app/src/app.py:34-52 | `{}` for a missing or empty input, or one lacking timestamp or leads; otherwise those two as given, bpm iff present in the input, and no other key |
| AppFormat.FormatIdempotent | app/src/app.py:44-52 | formatting twice equals formatting once |
| AppFormat.FilteredRecordPassesThrough | app/src/app.py:44-52 | a filtered record as published passes through unchanged |
| AppFormat.RawRecordFormatsEmpty | app/src/app.py:44-45 | a raw record, which has no leads, formats to `{}` |
| EcgLogger.NewLogger | app/src/ecg_logger.py:124-150 | a new logger keeps the given topic, batch size, patient id and session id, has file index 0, an empty buffer, is not running, and has the lead list of its topic |
| EcgLogger.LeadsFor | app/src/ecg_logger.py:138-141 | RA, LA, LL for the raw topic; I, II, III, aVR, aVL, aVF for the filtered topic; `["unknown"]` for any other |
| EcgLogger.LeadTableMatchesPayloads | app/src/ecg_logger.py:138-141 | each listed lead name is a key of the payload published on that topic |
| EcgLogger.Tag | app/src/ecg_logger.py:204-206 | each record gains patient and session set to the logger's ids, other keys unchanged |
| EcgLogger.Pad4 | app/src/ecg_logger.py:220 | `{:04d}` of a non-negative index is all digits, of length four or the index's digit count when longer |
| EcgLogger.Pad4RoundTrip | app/src/ecg_logger.py:220 | the zero-padded index reads back as the index |
| EcgLogger.Filename | app/src/ecg_logger.py:218-221 | the name's length is the id's, plus one, plus the padded index's, plus eight |
| EcgLogger.FilenameParts | app/src/ecg_logger.py:218-221 | the name is the patient id and `_`, then the padded index, then `.parquet` |
| EcgLogger.WriteBatch | app/src/ecg_logger.py:215-230 | the batch goes to the file named for the current index with its rows unchanged, and the index moves on by exactly one |
| EcgLogger.FilenameInjective | app/src/ecg_logger.py:218-221 | two file names of a patient are equal iff their indices are |
| EcgLogger.FirstFilenames | app/src/ecg_logger.py:218-221 | indices 0 and 12 give `P1_0000.parquet` and `P1_0012.parquet` |
| EcgLogger.Buffer | app/src/ecg_logger.py:206-210 | the record joins the buffer; once the buffer reaches `batch_size` it is written whole as the next numbered file and emptied, otherwise nothing is written |
| EcgLogger.BufferKeeps | app/src/ecg_logger.py:206-210 | buffering keeps files-then-buffer equal to the records so far, files numbered consecutively, full batches and a buffer below one batch |
| EcgLogger.Flush | app/src/ecg_logger.py:196-201 | on shutdown a non-empty buffer is written whole as the next numbered file and emptied; an empty one writes nothing |
| EcgLogger.FlushKeeps | app/src/ecg_logger.py:196-201 | the shutdown flush keeps files-then-buffer equal to the records so far |
| EcgLogger.LogDataLoop | app/src/ecg_logger.py:190-213 | processes the messages before the first shutdown; files then buffer hold those records tagged, in order; files are numbered from the current index; without shutdown every file is one full batch and the buffer is below one batch; after a shutdown the buffer has been flushed |
| EcgLogger.LogWithoutShutdown | app/src/ecg_logger.py:206-210 | after `n` messages without shutdown, `n div batch_size` files are written and `n mod batch_size` records remain buffered |
| EcgLogger.BatchArithmetic | app/src/ecg_logger.py:206-210 | `n = batches * b + pending` with `pending < b` fixes `batches = n div b` and `pending = n mod b` |
| EcgLogger.Stop | app/src/ecg_logger.py:169-188 | `stop` writes the instance buffer iff it is non-empty, and reports `file_count` equal to the file index afterwards |
| EcgLogger.Session | app/src/ecg_logger.py:153-213 | from a new logger, when the loop ends first and `stop` runs after it, `stop` writes no file and the manifest count equals the number of files the loop wrote, numbered from 0 |
| EcgLogger.StopFirstAsWritten | app/src/ecg_logger.py:169-213 | `stop` called while the loop has buffered `k` messages, as the timeout thread and the signal handler do: the manifest never counts more files than end up written |
| EcgLogger.StopFirstMissesLastBatch | app/src/ecg_logger.py:169-213 | as written, the manifest counts `k div b` files; if another message arrives the loop then writes its partial batch as one more file, otherwise those `k mod b` records are never written; files then unwritten records are the tagged messages in order |
| EcgLogger.StopFirstCounterexample | app/src/test/test_logger.py:38-43 | batches of two, `stop` after one message: with a second message the manifest says 0 while one file is written; without one the record is never written |
| EcgLogger.StopFirst | app/src/ecg_logger.py:169-201 | the intended `stop` leaves no buffered record unwritten |
| EcgLogger.StopFirstCountsAll | app/src/ecg_logger.py:169-201 | with the intended `stop`, the files hold every tagged message in order, are numbered from 0, and the manifest counts all of them |

## Left out

- Filter coefficient design and `sosfilt` (signal_processing/src/filters.py:31-66) are floating-point DSP. The filter engine is an opaque state step.
- `find_peaks` internals (height, distance, prominence) are a library call. It is a parameter that returns ascending in-window indices.
- float32 storage and float64 rounding are not modelled; values are exact reals.
- HeartRate.NewMonitor: `int(0.3 * fs)` is modelled as the exact floor of `3 fs / 10`. Binary rounding of `0.3 * fs` could differ by one for some `fs`.
- HeartRate.NewMonitor: requires `fs * buffer_duration_sec > 0`. A capacity of zero makes `append` divide by zero, and the model does not represent that crash.
- msgpack and msgpack_numpy byte encoding is not modelled; payloads are dictionaries and `pack`/`unpack` are parameters.
- JSON parsing of serial lines is abstract: a line is empty, fails UTF-8, fails JSON, lacks a key, or is a reading. A JSON value that is not an object (`[1, 2]`, `5`) raises `TypeError` at the key lookup at signal_processing/src/signal_processing.py:105, not `KeyError`; the model folds it into `MissingKey`, which also ends the stream. Values are taken to be numbers: a string that `float` accepts (`"1.5"`) would convert without error, and any other string raises `ValueError` in the `np.array` conversion, which the model does not represent.
- `time.time_ns()` is an input: each reading carries the clock value taken for it.
- The serial port, pynng sockets, `time.sleep`, the capture thread and `queue.Queue` are left out as I/O and concurrency. Samples arrive as a sequence, and the socket as a trace.
- SocketStream.Run: a missing `stop_event` behaves like an event that is never set. In the model, that is a trace without `StopSet`.
- SocketStream.Run: exceptions from `Sub0(**kwargs)` or `subscribe` go to the same handler as a failed dial, so both are folded into `DialResult(false)`.
- SocketStream.Run: a consumer that closes the generator early is not modelled.
- SocketStream.Run: the topic is taken to be valid UTF-8, as the ASCII topics of the system are. For any other topic, `topic.decode()` in the logging call at app/src/socket_stream.py:58 (or :71) raises, the handler's own `topic.decode()` at :75 raises again, and the exception leaves the generator; the model does not represent that exception.
- Logging calls are left out throughout.
- The Flask routes and the SSE loop in app/src/app.py are web I/O. The ECGReader queue handoff is not part of this model.
- Parquet writes, the metadata JSON and the manifest file are file I/O. The model returns what would be written: file names with their rows, and the manifest count.
- Patient and session id generation (uuid, datetime) is an input.
- EcgLogger.NewLogger: an empty or `None` `patient_id` is replaced by a generated id (app/src/ecg_logger.py:129); the model's `patientId` is the id after that replacement.
- The `start` timeout thread calls `stop` concurrently with the loop. The model takes the two orders one at a time: the loop ending first (`EcgLogger.Session`) and `stop` completing before the loop's next message (`EcgLogger.StopFirstAsWritten`). A message handled while `stop` is between clearing `running` and writing the manifest is not modelled.
- EcgLogger.LogDataLoop: the `except Exception` around tagging is not modelled. Nothing in that block raises for dictionary payloads. Write failures are I/O.
- Pipeline.Step: states the estimate as the value `process_latest_window` returns on the monitor after appending lead II. It does not repeat that function's own contract.

## Findings

| source | as written | input that shows it | evidently intended | confidence | as-written member | corrected member |
|---|---|---|---|---|---|---|
| signal_processing/src/signal_processing.py:64-83 | the log-and-raise is indented inside the `for` body, so the first failed attempt raises (after a sleep when `retries > 1`), and `retries <= 0` skips the loop and returns `None` | `retries = 3`, with the device opening only at the second attempt: raises `SerialException` after one attempt; `retries = 0`: returns `None` | try up to `retries` times, sleeping between failures, and raise only after all have failed, as the docstring says | high; not executed | Pipeline.OpenSerialAsWritten (with Pipeline.OpenSerialCounterexample) | Pipeline.OpenSerial |
| app/src/ecg_logger.py:169-201 | `stop` flushes the instance `_buffer`, which the loop never fills (it buffers into a local list), and then writes the manifest with `file_count=self._file_index`; the loop flushes its own buffer only when the next message arrives, after the manifest | `batch_size = 2`, `stop` called by the signal handler (app/src/test/test_logger.py:38-43) after one message: a second message makes the loop write `P_0000.parquet`, but the manifest says `file_count = 0`; with no second message the record is never written | `stop` writes every buffered record before recording `file_count`, so the manifest counts every file | medium; not executed | EcgLogger.StopFirstAsWritten (with EcgLogger.StopFirstMissesLastBatch and EcgLogger.StopFirstCounterexample) | EcgLogger.StopFirst (with EcgLogger.StopFirstCountsAll) |

=== FILE: app_format.dfy ===
/** `format_ecg_json` (app/src/app.py): the dictionary filter the web app applies to each
    filtered record before sending it to the browser. */
module AppFormat {
  import opened Common
  import opened Leads
  import opened Wire

  /** Python's `not data or "timestamp" not in data or "leads" not in data`, with `None`
      as the absent dictionary. An empty dictionary lacks both keys. */
  predicate Unusable(data: Option<Payload>)
  {
    data.None? || "timestamp" !in data.value || "leads" !in data.value
  }

  /** `format_ecg_json`: `{}` for an unusable input; otherwise timestamp and leads as
      given, bpm exactly when the input has it, and no other key. */
  function FormatEcgJson(data: Option<Payload>): (r: Payload)
    ensures Unusable(data) ==> r == map[]
    ensures !Unusable(data) ==>
              && r.Keys == {"timestamp", "leads"} + (if "bpm" in data.value then {"bpm"} else {})
              && r["timestamp"] == data.value["timestamp"]
              && r["leads"] == data.value["leads"]
              && ("bpm" in r ==> r["bpm"] == data.value["bpm"])
    ensures data.Some? ==> r.Keys <= data.value.Keys
    ensures forall k :: k in r ==> r[k] == data.value[k]
  {
    if Unusable(data) then map[]
    else
      var d := data.value;
      var result := map["timestamp" := d["timestamp"], "leads" := d["leads"]];
      if "bpm" in d then result["bpm" := d["bpm"]] else result
  }

  /** Formatting twice is formatting once. */
  lemma FormatIdempotent(data: Option<Payload>)
    ensures FormatEcgJson(Some(FormatEcgJson(data))) == FormatEcgJson(data)
  {
    var r := FormatEcgJson(data);
    if !Unusable(data) {
      assert "timestamp" in r && "leads" in r;
      var r2 := FormatEcgJson(Some(r));
      assert r2.Keys == r.Keys;
    }
  }

  /** A record as the signal processor publishes it on `ecg.filtered` passes through
      unchanged, with or without an estimate. */
  lemma FilteredRecordPassesThrough(timestamp: real, leads: map<string, real>, bpm: Option<real>)
    ensures FormatEcgJson(Some(FilteredPayload(timestamp, leads, bpm))) == FilteredPayload(timestamp, leads, bpm)
  {
    var p := FilteredPayload(timestamp, leads, bpm);
    assert FormatEcgJson(Some(p)).Keys == p.Keys;
  }

  /** A raw record has no "leads" and formats to the empty dictionary. */
  lemma RawRecordFormatsEmpty(timestamp: real, voltages: Electrodes)
    ensures FormatEcgJson(Some(RawPayload(timestamp, voltages))) == map[]
  {
    assert "leads" !in RawPayload(timestamp, voltages);
  }
}

=== FILE: common.dfy ===
/** Shared vocabulary: optional values, the dynamically typed values that travel in
    payload dictionaries, bytes, and a few sequence helpers used across the model. */
module Common {

  /** Python's `X | None`. */
  datatype Option<+T> = None | Some(value: T)

  /** One byte of a wire frame. */
  newtype byte = x: int | 0 <= x < 256

  /** A value stored in a payload dictionary: a number, a string, or a nested dictionary.
      Lists, booleans and NumPy arrays never occur in the payloads of this system. */
  datatype Value = Num(x: real) | Str(s: string) | Obj(fields: map<string, Value>)

  /** A dictionary payload (the Python `dict` that msgpack encodes). */
  type Payload = map<string, Value>

  /** The newest `n` elements of `xs` (all of `xs` when it has fewer). */
  function LastN<T>(xs: seq<T>, n: nat): (r: seq<T>)
    ensures |r| == if |xs| <= n then |xs| else n
    ensures forall i :: 0 <= i < |r| ==> r[i] == xs[|xs| - |r| + i]
  {
    if |xs| <= n then xs else xs[|xs| - n..]
  }

  /** Appending one element and then dropping the head once when the result is over `n`
      keeps exactly the newest `n` elements of the extended history. */
  lemma {:induction false} LastNSnoc<T>(xs: seq<T>, x: T, n: nat)
    ensures var l := LastN(xs, n) + [x];
            LastN(xs + [x], n) == if |l| > n then l[1..] else l
  {
    var ys := xs + [x];
    if |ys| <= n {
      assert LastN(xs, n) == xs;
    } else if n == 0 {
      assert LastN(ys, n) == [];
    } else {
      // the history is over `n`: both sides are the last `n` elements of `ys`
      var l := LastN(xs, n) + [x];
      assert |l| == n + 1;
      assert LastN(ys, n) == ys[|ys| - n..];
      assert l[1..] == ys[|ys| - n..];
    }
  }

  /** Every character is ASCII. */
  predicate IsAscii(s: string)
  {
    forall i :: 0 <= i < |s| ==> s[i] as int < 128
  }

  /** A string of ASCII characters as the bytes Python's `b"..."` literal denotes. */
  function AsciiBytes(s: string): (r: seq<byte>)
    requires IsAscii(s)
    ensures |r| == |s|
    ensures forall i :: 0 <= i < |s| ==> r[i] as int == s[i] as int
  {
    seq(|s|, i requires 0 <= i < |s| => s[i] as int as byte)
  }

  /** Every element of `xs` lies strictly between `lo` and `hi`. */
  predicate AllWithin(xs: seq<real>, lo: real, hi: real)
  {
    forall i :: 0 <= i < |xs| ==> lo < xs[i] < hi
  }

  /** The sum of a sequence of reals, folded from the last element. */
  function Sum(xs: seq<real>): real
  {
    if |xs| == 0 then 0.0 else Sum(xs[..|xs| - 1]) + xs[|xs| - 1]
  }

  /** Summing elements that all lie in (lo, hi) gives a total in (n*lo, n*hi). */
  lemma {:induction false} SumWithin(xs: seq<real>, lo: real, hi: real)
    requires |xs| > 0
    requires AllWithin(xs, lo, hi)
    ensures |xs| as real * lo < Sum(xs) < |xs| as real * hi
  {
    var n := |xs|;
    if n > 1 {
      var init := xs[..n - 1];
      assert AllWithin(init, lo, hi) by {
        forall i | 0 <= i < |init| ensures lo < init[i] < hi {
          assert init[i] == xs[i];
        }
      }
      SumWithin(init, lo, hi);
    }
  }
}

=== FILE: ecg_logger.dfy ===
/** `ECGLogger` (app/src/ecg_logger.py): the topic's lead table, tagging each record
    with the patient and session, batching records into numbered Parquet files, and
    `stop`. File, metadata and manifest writes appear as the values they would write. */
module EcgLogger {
  import opened Common
  import opened Leads
  import opened Wire

  // ---------------------------------------------------------------- lead table

  /** The dictionary lookup in `__init__`: electrode names for `ecg.raw`, the derived
      leads for `ecg.filtered`, `["unknown"]` for any other topic. */
  function LeadsFor(topic: seq<byte>): (names: seq<string>)
    ensures topic == RawTopic() ==> names == ["RA", "LA", "LL"]
    ensures topic == FilteredTopic() ==> names == LeadOrder
    ensures topic != RawTopic() && topic != FilteredTopic() ==> names == ["unknown"]
  {
    if topic == RawTopic() then ["RA", "LA", "LL"]
    else if topic == FilteredTopic() then LeadOrder
    else ["unknown"]
  }

  /** The lead table agrees with what the signal processor publishes on each topic:
      every name listed for `ecg.raw` is a key of the raw payload, and every name listed
      for `ecg.filtered` is a key of the filtered payload's leads object. */
  lemma LeadTableMatchesPayloads(timestamp: real, e: Electrodes, bpm: Option<real>)
    ensures forall k :: 0 <= k < |LeadsFor(RawTopic())| ==> LeadsFor(RawTopic())[k] in RawPayload(timestamp, e)
    ensures var p := FilteredPayload(timestamp, ComputeLeads(e), bpm);
            forall k :: 0 <= k < |LeadsFor(FilteredTopic())| ==> LeadsFor(FilteredTopic())[k] in p["leads"].fields
  {
    TopicsPrefixFree();
    LeadOrderNamesKeys();
  }

  // ---------------------------------------------------------------- file names

  predicate IsDigit(ch: char)
  {
    '0' <= ch <= '9'
  }

  predicate AllDigits(s: string)
  {
    forall i :: 0 <= i < |s| ==> IsDigit(s[i])
  }

  function DigitChar(d: nat): (ch: char)
    requires d < 10
    ensures IsDigit(ch) && ch as int - '0' as int == d
  {
    ('0' as int + d) as char
  }

  /** The decimal representation of `n`, without leading zeros. */
  function Digits(n: nat): (s: string)
    ensures |s| >= 1 && AllDigits(s)
    decreases n
  {
    if n < 10 then [DigitChar(n)] else Digits(n / 10) + [DigitChar(n % 10)]
  }

  /** The number a string of decimal digits denotes. */
  function ValueOf(s: string): nat
    requires AllDigits(s)
  {
    if |s| == 0 then 0 else ValueOf(s[..|s| - 1]) * 10 + (s[|s| - 1] as int - '0' as int)
  }

  function Zeros(k: nat): (s: string)
    ensures |s| == k && AllDigits(s)
  {
    seq(k, _ => '0')
  }

  /** Python's `f"{n:04d}"` for `n >= 0`: at least four digits, zero-padded on the left. */
  function Pad4(n: nat): (s: string)
    ensures AllDigits(s)
    ensures |s| == if |Digits(n)| >= 4 then |Digits(n)| else 4
  {
    if |Digits(n)| >= 4 then Digits(n) else Zeros(4 - |Digits(n)|) + Digits(n)
  }

  lemma {:induction false} ValueOfDigits(n: nat)
    ensures ValueOf(Digits(n)) == n
    decreases n
  {
    if n >= 10 {
      var s := Digits(n / 10) + [DigitChar(n % 10)];
      assert s[..|s| - 1] == Digits(n / 10);
      ValueOfDigits(n / 10);
    }
  }

  lemma {:induction false} ValueOfZerosPrefix(k: nat, s: string)
    requires AllDigits(s)
    ensures ValueOf(Zeros(k) + s) == ValueOf(s)
    decreases |s|
  {
    if |s| == 0 {
      assert Zeros(k) + s == Zeros(k);
      ValueOfZeros(k);
    } else {
      var t := Zeros(k) + s;
      assert t[..|t| - 1] == Zeros(k) + s[..|s| - 1];
      ValueOfZerosPrefix(k, s[..|s| - 1]);
    }
  }

  lemma {:induction false} ValueOfZeros(k: nat)
    ensures ValueOf(Zeros(k)) == 0
    decreases k
  {
    if k > 0 {
      assert Zeros(k)[..k - 1] == Zeros(k - 1);
      ValueOfZeros(k - 1);
    }
  }

  /** The padded index reads back as the index. */
  lemma Pad4RoundTrip(n: nat)
    ensures ValueOf(Pad4(n)) == n
  {
    ValueOfDigits(n);
    if |Digits(n)| < 4 {
      ValueOfZerosPrefix(4 - |Digits(n)|, Digits(n));
    }
  }

  /** `f"{self.patient_id}_{self._file_index:04d}.parquet"`. */
  function Filename(patientId: string, index: nat): (name: string)
    ensures |name| == |patientId| + 1 + |Pad4(index)| + 8
  {
    patientId + "_" + Pad4(index) + ".parquet"
  }

  /** A file name is the patient's id and `_`, then the padded index, then `.parquet`. */
  lemma FilenameParts(patientId: string, index: nat)
    ensures var name := Filename(patientId, index);
            && name[..|patientId| + 1] == patientId + "_"
            && name[|patientId| + 1..|name| - 8] == Pad4(index)
            && name[|name| - 8..] == ".parquet"
  {
  }

  /** Distinct file indices give distinct file names, so no batch overwrites another. */
  lemma FilenameInjective(patientId: string, a: nat, b: nat)
    ensures Filename(patientId, a) == Filename(patientId, b) <==> a == b
  {
    if Filename(patientId, a) == Filename(patientId, b) {
      var na, nb := Filename(patientId, a), Filename(patientId, b);
      var lo := |patientId| + 1;
      assert na[lo..|na| - 8] == Pad4(a);
      assert nb[lo..|nb| - 8] == Pad4(b);
      Pad4RoundTrip(a);
      Pad4RoundTrip(b);
    }
  }

  /** The first two file names of a session. */
  lemma FirstFilenames()
    ensures Filename("P1", 0) == "P1_0000.parquet"
    ensures Filename("P1", 12) == "P1_0012.parquet"
  {
    assert Pad4(0) == "0000" by {
      assert Digits(0) == "0";
      assert Zeros(3) == "000";
    }
    assert Pad4(12) == "0012" by {
      Pad4Twelve();
    }
  }

  lemma Pad4Twelve()
    ensures Pad4(12) == "0012"
  {
    assert Digits(1) == "1" && Digits(2) == "2";
    assert Digits(12) == "12";
    assert Zeros(2) == "00";
  }

  // ---------------------------------------------------------------- the logger

  /** The fields of an `ECGLogger` the model keeps: ids, topic and its lead table, batch
      size, the running flag, the file counter and the instance's own `_buffer`. */
  datatype Logger = Logger(patientId: string, sessionId: string, topic: seq<byte>,
                           leads: seq<string>, batchSize: int, running: bool,
                           fileIndex: nat, buffer: seq<Payload>)

  /** A Parquet file the logger writes: its name and its rows. */
  datatype File = File(name: string, rows: seq<Payload>)

  /** `__init__`, after the id generation the model leaves to its caller. */
  function NewLogger(topic: seq<byte>, batchSize: int, patientId: string, sessionId: string): (lg: Logger)
    ensures lg.leads == LeadsFor(topic) && lg.fileIndex == 0 && lg.buffer == [] && !lg.running
    ensures lg.topic == topic && lg.batchSize == batchSize
    ensures lg.patientId == patientId && lg.sessionId == sessionId
  {
    Logger(patientId, sessionId, topic, LeadsFor(topic), batchSize, false, 0, [])
  }

  /** `data["patient"] = ...; data["session"] = ...`. */
  function Tag(data: Payload, patientId: string, sessionId: string): (r: Payload)
    ensures r.Keys == data.Keys + {"patient", "session"}
    ensures r["patient"] == Str(patientId) && r["session"] == Str(sessionId)
    ensures forall k :: k in data && k != "patient" && k != "session" ==> r[k] == data[k]
  {
    data["patient" := Str(patientId)]["session" := Str(sessionId)]
  }

  /** `_write_batch`: the file for the current index, then the index moves on by one. */
  function WriteBatch(lg: Logger, batch: seq<Payload>): (r: (Logger, File))
    ensures r.1 == File(Filename(lg.patientId, lg.fileIndex), batch)
    ensures r.0 == lg.(fileIndex := lg.fileIndex + 1)
  {
    (lg.(fileIndex := lg.fileIndex + 1), File(Filename(lg.patientId, lg.fileIndex), batch))
  }

  /** One message from the socket stream, and whether the shutdown test
      (`not self.running or stop_event.is_set()`) holds when it arrives. */
  datatype Arrival = Arrival(data: Payload, shutdown: bool)

  /** The arrivals the loop processes: those before the first shutdown. */
  function Processed(items: seq<Arrival>): (ps: seq<Arrival>)
    ensures ps <= items
    ensures forall k :: 0 <= k < |ps| ==> !ps[k].shutdown
    ensures |ps| < |items| ==> items[|ps|].shutdown
  {
    if |items| == 0 || items[0].shutdown then []
    else [items[0]] + Processed(items[1..])
  }

  /** The records the loop buffers: each processed message tagged. */
  function Tagged(items: seq<Arrival>, patientId: string, sessionId: string): (rs: seq<Payload>)
    ensures |rs| == |items|
    ensures forall k :: 0 <= k < |items| ==> rs[k] == Tag(items[k].data, patientId, sessionId)
  {
    seq(|items|, k requires 0 <= k < |items| => Tag(items[k].data, patientId, sessionId))
  }

  /** All rows of a run of files, in writing order. */
  function Rows(files: seq<File>): (rs: seq<Payload>)
  {
    if |files| == 0 then [] else Rows(files[..|files| - 1]) + files[|files| - 1].rows
  }

  /** The effective batch size: a `batch_size` below one makes `len(buffer) >= batch_size`
      hold after every append, so each record is written on its own. */
  function Effective(batchSize: int): (b: nat)
    ensures b >= 1 && (batchSize >= 1 ==> b == batchSize)
  {
    if batchSize >= 1 then batchSize else 1
  }

  /** The files are numbered consecutively from `from` under the patient's id. */
  predicate NumberedFrom(files: seq<File>, patientId: string, from: nat)
  {
    forall k :: 0 <= k < |files| ==> files[k].name == Filename(patientId, from + k)
  }

  /** The loop's working state: the logger, the files written so far and the local
      `buffer` list. */
  datatype Batching = Batching(lg: Logger, files: seq<File>, pending: seq<Payload>)

  /** `st` accounts for the records `done` since `lg0`: the counter moved by one per
      file, the files are numbered consecutively, and files then buffer hold exactly
      `done`, in order. */
  predicate Consistent(lg0: Logger, st: Batching, done: seq<Payload>)
  {
    && st.lg == lg0.(fileIndex := lg0.fileIndex + |st.files|)
    && NumberedFrom(st.files, lg0.patientId, lg0.fileIndex)
    && Rows(st.files) + st.pending == done
  }

  /** Every file holds a full batch and the buffer is below one. */
  predicate Batched(st: Batching, b: nat)
  {
    && (forall k :: 0 <= k < |st.files| ==> |st.files[k].rows| == b)
    && |st.pending| < b
  }

  /** `buffer.append(data)`, then write and clear once `len(buffer) >= batch_size`. */
  function Buffer(st: Batching, record: Payload): (st': Batching)
    ensures |st.pending| + 1 >= st.lg.batchSize ==>
              && st'.pending == []
              && st'.files == st.files + [File(Filename(st.lg.patientId, st.lg.fileIndex), st.pending + [record])]
              && st'.lg.fileIndex == st.lg.fileIndex + 1
    ensures |st.pending| + 1 < st.lg.batchSize ==> st'.pending == st.pending + [record] && st'.files == st.files
  {
    var pending := st.pending + [record];
    if |pending| >= st.lg.batchSize then
      var (next, f) := WriteBatch(st.lg, pending);
      Batching(next, st.files + [f], [])
    else st.(pending := pending)
  }

  lemma BufferKeeps(lg0: Logger, st: Batching, record: Payload, done: seq<Payload>)
    requires Consistent(lg0, st, done) && Batched(st, Effective(lg0.batchSize))
    ensures Consistent(lg0, Buffer(st, record), done + [record])
    ensures Batched(Buffer(st, record), Effective(lg0.batchSize))
  {
    BufferConsistent(lg0, st, record, done);
    BufferBatched(st, record, Effective(lg0.batchSize));
  }

  lemma BufferConsistent(lg0: Logger, st: Batching, record: Payload, done: seq<Payload>)
    requires Consistent(lg0, st, done)
    ensures Consistent(lg0, Buffer(st, record), done + [record])
  {
    var st1 := st.(pending := st.pending + [record]);
    assert Consistent(lg0, st1, done + [record]) by {
      assert Rows(st.files) + st1.pending == (Rows(st.files) + st.pending) + [record];
    }
    if |st1.pending| >= st.lg.batchSize {
      WrittenKeeps(lg0, st1, done + [record]);
    }
  }

  lemma BufferBatched(st: Batching, record: Payload, b: nat)
    requires b == Effective(st.lg.batchSize) && Batched(st, b)
    ensures Batched(Buffer(st, record), b)
  {
    var pending := st.pending + [record];
    if |pending| >= st.lg.batchSize {
      var (next, f) := WriteBatch(st.lg, pending);
      var files := st.files + [f];
      assert Buffer(st, record) == Batching(next, files, []);
      assert |f.rows| == b;
      forall k | 0 <= k < |files| ensures |files[k].rows| == b {
        if k < |st.files| {
          assert files[k] == st.files[k];
        }
      }
    }
  }

  /** Writing the buffer as the next file keeps the accounting. */
  lemma WrittenKeeps(lg0: Logger, st: Batching, done: seq<Payload>)
    requires Consistent(lg0, st, done)
    ensures var (next, f) := WriteBatch(st.lg, st.pending);
            Consistent(lg0, Batching(next, st.files + [f], []), done)
  {
    var (next, f) := WriteBatch(st.lg, st.pending);
    var files := st.files + [f];
    assert NumberedFrom(files, lg0.patientId, lg0.fileIndex) by {
      forall k | 0 <= k < |files|
        ensures files[k].name == Filename(lg0.patientId, lg0.fileIndex + k)
      {
        if k < |st.files| {
          assert files[k] == st.files[k];
        } else {
          assert files[k] == f && st.lg.patientId == lg0.patientId;
          assert st.lg.fileIndex == lg0.fileIndex + k;
        }
      }
    }
    assert Rows(files) + [] == done by {
      RowsSnoc(st.files, f);
    }
  }

  /** The flush on shutdown: write the buffer if it is not empty. */
  function Flush(st: Batching): (st': Batching)
    ensures st'.pending == []
    ensures st.pending == [] ==> st' == st
    ensures st.pending != [] ==>
              && st'.files == st.files + [File(Filename(st.lg.patientId, st.lg.fileIndex), st.pending)]
              && st'.lg.fileIndex == st.lg.fileIndex + 1
  {
    if st.pending != [] then
      var (next, f) := WriteBatch(st.lg, st.pending);
      Batching(next, st.files + [f], [])
    else st
  }

  lemma FlushKeeps(lg0: Logger, st: Batching, done: seq<Payload>)
    requires Consistent(lg0, st, done)
    ensures Consistent(lg0, Flush(st), done)
  {
    if st.pending != [] {
      WrittenKeeps(lg0, st, done);
    }
  }

  /** `_log_data_loop` over the messages the socket stream yields. Returns the logger,
      the files written, the loop's local buffer when the messages run out, and whether
      it left on shutdown. */
  method LogDataLoop(lg: Logger, items: seq<Arrival>)
    returns (lg': Logger, files: seq<File>, pending: seq<Payload>, shutDown: bool)
    ensures lg' == lg.(fileIndex := lg.fileIndex + |files|)
    ensures NumberedFrom(files, lg.patientId, lg.fileIndex)
    ensures shutDown <==> exists k :: 0 <= k < |items| && items[k].shutdown
    ensures Rows(files) + pending == Tagged(Processed(items), lg.patientId, lg.sessionId)
    ensures shutDown ==> pending == []
    ensures !shutDown ==> forall k :: 0 <= k < |files| ==> |files[k].rows| == Effective(lg.batchSize)
    ensures !shutDown ==> |pending| < Effective(lg.batchSize)
  {
    var st := Batching(lg, [], []);
    var b := Effective(lg.batchSize);
    shutDown := false;
    var i := 0;
    while i < |items|
      invariant 0 <= i <= |items|
      invariant LoopInv(lg, items, i, st)
    {
      if items[i].shutdown {
        ShutdownFlushes(lg, items, i, st);
        st := Flush(st);
        lg', files, pending, shutDown := st.lg, st.files, st.pending, true;
        return;
      }
      BufferStep(lg, items, i, st);
      st := Buffer(st, Tag(items[i].data, lg.patientId, lg.sessionId));
      i := i + 1;
    }
    ProcessedUpTo(items, i);
    lg', files, pending := st.lg, st.files, st.pending;
  }

  /** The loop invariant after the first `i` messages. */
  predicate LoopInv(lg: Logger, items: seq<Arrival>, i: int, st: Batching)
    requires 0 <= i <= |items|
  {
    && (forall k :: 0 <= k < i ==> !items[k].shutdown)
    && Consistent(lg, st, Tagged(items[..i], lg.patientId, lg.sessionId))
    && Batched(st, Effective(lg.batchSize))
  }

  lemma BufferStep(lg: Logger, items: seq<Arrival>, i: int, st: Batching)
    requires 0 <= i < |items| && !items[i].shutdown && LoopInv(lg, items, i, st)
    ensures LoopInv(lg, items, i + 1, Buffer(st, Tag(items[i].data, lg.patientId, lg.sessionId)))
  {
    TaggedSnoc(items, i, lg.patientId, lg.sessionId);
    BufferKeeps(lg, st, Tag(items[i].data, lg.patientId, lg.sessionId),
                Tagged(items[..i], lg.patientId, lg.sessionId));
  }

  lemma ShutdownFlushes(lg: Logger, items: seq<Arrival>, i: int, st: Batching)
    requires 0 <= i < |items| && items[i].shutdown && LoopInv(lg, items, i, st)
    ensures var st' := Flush(st);
            && st'.lg == lg.(fileIndex := lg.fileIndex + |st'.files|)
            && NumberedFrom(st'.files, lg.patientId, lg.fileIndex)
            && Rows(st'.files) + st'.pending == Tagged(Processed(items), lg.patientId, lg.sessionId)
            && st'.pending == []
  {
    ProcessedUpTo(items, i);
    FlushKeeps(lg, st, Tagged(items[..i], lg.patientId, lg.sessionId));
  }

  /** The loop processes exactly the messages before the first shutdown. */
  lemma {:induction false} ProcessedUpTo(items: seq<Arrival>, i: int)
    requires 0 <= i <= |items|
    requires forall k :: 0 <= k < i ==> !items[k].shutdown
    requires i == |items| || items[i].shutdown
    ensures Processed(items) == items[..i]
    decreases i
  {
    if i > 0 {
      assert items[1..][..i - 1] == items[1..i];
      ProcessedUpTo(items[1..], i - 1);
      assert items[..i] == [items[0]] + items[1..i];
    }
  }

  lemma RowsSnoc(files: seq<File>, f: File)
    ensures Rows(files + [f]) == Rows(files) + f.rows
  {
    assert (files + [f])[..|files|] == files;
  }

  lemma TaggedSnoc(items: seq<Arrival>, i: int, patientId: string, sessionId: string)
    requires 0 <= i < |items|
    ensures Tagged(items[..i + 1], patientId, sessionId)
            == Tagged(items[..i], patientId, sessionId) + [Tag(items[i].data, patientId, sessionId)]
  {
  }

  /** `stop`: flush the instance's `_buffer` if non-empty, then the manifest entry with
      `file_count = _file_index`. Returns the logger, the files written and that count. */
  function Stop(lg: Logger): (r: (Logger, seq<File>, nat))
    ensures !r.0.running && r.0.buffer == []
    ensures lg.buffer == [] ==> r.1 == [] && r.2 == lg.fileIndex
    ensures lg.buffer != [] ==> |r.1| == 1 && r.1[0] == File(Filename(lg.patientId, lg.fileIndex), lg.buffer)
    ensures r.2 == r.0.fileIndex == lg.fileIndex + |r.1|
  {
    var lg1 := lg.(running := false);
    if lg1.buffer != [] then
      var (next, f) := WriteBatch(lg1, lg1.buffer);
      (next.(buffer := []), [f], next.fileIndex)
    else (lg1, [], lg1.fileIndex)
  }

  /** A whole logging session from a fresh logger in which the loop ends first (its
      shutdown test sees a stop event set elsewhere) and `stop` runs after it. Because the
      loop buffers into a local list, `stop` finds `_buffer` empty, writes nothing, and
      the manifest's `file_count` is the number of files the loop wrote. The order in
      which `stop` comes first is `StopFirstAsWritten`. */
  method Session(topic: seq<byte>, batchSize: int, patientId: string, sessionId: string,
                 items: seq<Arrival>)
    returns (files: seq<File>, stopFiles: seq<File>, fileCount: nat)
    ensures stopFiles == []
    ensures fileCount == |files|
    ensures NumberedFrom(files, patientId, 0)
  {
    var lg := NewLogger(topic, batchSize, patientId, sessionId).(running := true);
    var lg', loopFiles, pending, shutDown := LogDataLoop(lg, items);
    var (_, written, count) := Stop(lg');
    files, stopFiles, fileCount := loopFiles, written, count;
  }

  // ---------------------------------------------------------------- stop before the loop ends

  /** The records of the messages, each tagged. */
  function TagAll(msgs: seq<Payload>, patientId: string, sessionId: string): (rs: seq<Payload>)
    ensures |rs| == |msgs|
    ensures forall k :: 0 <= k < |msgs| ==> rs[k] == Tag(msgs[k], patientId, sessionId)
  {
    seq(|msgs|, k requires 0 <= k < |msgs| => Tag(msgs[k], patientId, sessionId))
  }

  /** The loop body over each record in turn, with no shutdown. */
  function BufferAll(st: Batching, rs: seq<Payload>): (st': Batching)
    decreases |rs|
  {
    if |rs| == 0 then st else Buffer(BufferAll(st, rs[..|rs| - 1]), rs[|rs| - 1])
  }

  lemma {:induction false} BufferAllKeeps(lg0: Logger, st: Batching, rs: seq<Payload>, done: seq<Payload>)
    requires Consistent(lg0, st, done) && Batched(st, Effective(lg0.batchSize))
    ensures Consistent(lg0, BufferAll(st, rs), done + rs)
    ensures Batched(BufferAll(st, rs), Effective(lg0.batchSize))
    decreases |rs|
  {
    if |rs| == 0 {
      assert done + rs == done;
    } else {
      var init, last := rs[..|rs| - 1], rs[|rs| - 1];
      var mid := BufferAll(st, init);
      assert BufferAll(st, rs) == Buffer(mid, last);
      assert done + rs == (done + init) + [last] by {
        assert rs == init + [last];
      }
      assert Consistent(lg0, mid, done + init) && Batched(mid, Effective(lg0.batchSize)) by {
        BufferAllKeeps(lg0, st, init, done);
      }
      BufferKeeps(lg0, mid, last, done + init);
    }
  }

  /** What a fresh running logger holds after buffering `rs` with no shutdown: files
      numbered from 0 holding full batches, `|rs| mod b` records in the loop's buffer, the
      instance `_buffer` still empty and the file index equal to the number of files. */
  lemma BufferedFromFresh(lg: Logger, rs: seq<Payload>)
    requires lg.fileIndex == 0 && lg.buffer == []
    ensures var st := BufferAll(Batching(lg, [], []), rs);
            var b := Effective(lg.batchSize);
            && Consistent(lg, st, rs)
            && |st.files| == |rs| / b && |st.pending| == |rs| % b
            && st.lg.buffer == [] && st.lg.fileIndex == |st.files|
  {
    var st0 := Batching(lg, [], []);
    var b := Effective(lg.batchSize);
    assert Consistent(lg, st0, []) && Batched(st0, b);
    BufferAllKeeps(lg, st0, rs, []);
    var st := BufferAll(st0, rs);
    assert [] + rs == rs;
    RowsLength(st.files, b);
    assert |rs| == |st.files| * b + |st.pending|;
    BatchArithmetic(|rs|, b, |st.files|, |st.pending|);
  }

  /** How a session ends: the files written, the manifest's `file_count`, and the records
      buffered but never written. */
  datatype Ending = Ending(files: seq<File>, fileCount: nat, unwritten: seq<Payload>)

  /** `stop` called first, as the timeout thread and the signal handler do, after the loop
      has buffered the first `k` messages. `stop` clears `running` but flushes only the
      instance `_buffer`, which the loop never fills, and writes the manifest with the
      current `_file_index`. The loop notices only when message `k` arrives, and then
      writes its own buffer; when no message arrives, that buffer is never written. */
  function StopFirstAsWritten(topic: seq<byte>, batchSize: int, patientId: string, sessionId: string,
                              msgs: seq<Payload>, k: nat): (e: Ending)
    requires k <= |msgs|
    ensures e.fileCount <= |e.files|
  {
    var lg := NewLogger(topic, batchSize, patientId, sessionId).(running := true);
    var rs := TagAll(msgs[..k], patientId, sessionId);
    var st := BufferAll(Batching(lg, [], []), rs);
    BufferedFromFresh(lg, rs);
    var (_, stopFiles, count) := Stop(st.lg);
    if k < |msgs| then Ending(Flush(st).files, count, [])
    else Ending(st.files, count, st.pending)
  }

  /** As written, the manifest counts only the files written before `stop`: the loop's
      last partial batch is written after it when another message arrives, and is lost
      otherwise. */
  lemma StopFirstMissesLastBatch(topic: seq<byte>, batchSize: int, patientId: string, sessionId: string,
                                 msgs: seq<Payload>, k: nat)
    requires k <= |msgs|
    ensures var e := StopFirstAsWritten(topic, batchSize, patientId, sessionId, msgs, k);
            var b := Effective(batchSize);
            && e.fileCount == k / b
            && (k < |msgs| ==> e.unwritten == [] && |e.files| == k / b + (if k % b == 0 then 0 else 1))
            && (k == |msgs| ==> |e.files| == k / b && |e.unwritten| == k % b)
            && Rows(e.files) + e.unwritten == TagAll(msgs[..k], patientId, sessionId)
  {
    var lg := NewLogger(topic, batchSize, patientId, sessionId).(running := true);
    var rs := TagAll(msgs[..k], patientId, sessionId);
    var st := BufferAll(Batching(lg, [], []), rs);
    BufferedFromFresh(lg, rs);
    if k < |msgs| {
      FlushKeeps(lg, st, rs);
    }
  }

  /** Batches of two, `stop` after one message, one more message arriving: the manifest
      says 0 files while one file is written; with no further message, the record is
      never written. */
  lemma StopFirstCounterexample(topic: seq<byte>, patientId: string, sessionId: string, p: Payload, q: Payload)
    ensures StopFirstAsWritten(topic, 2, patientId, sessionId, [p, q], 1).fileCount == 0
    ensures |StopFirstAsWritten(topic, 2, patientId, sessionId, [p, q], 1).files| == 1
    ensures |StopFirstAsWritten(topic, 2, patientId, sessionId, [p], 1).unwritten| == 1
  {
    assert Effective(2) == 2 && 1 / 2 == 0 && 1 % 2 == 1;
    var e := StopFirstAsWritten(topic, 2, patientId, sessionId, [p, q], 1);
    assert e.fileCount == 0 && |e.files| == 1 by {
      StopFirstMissesLastBatch(topic, 2, patientId, sessionId, [p, q], 1);
    }
    var e' := StopFirstAsWritten(topic, 2, patientId, sessionId, [p], 1);
    assert |e'.unwritten| == 1 by {
      StopFirstMissesLastBatch(topic, 2, patientId, sessionId, [p], 1);
    }
  }

  /** The evidently intended `stop`: it flushes the buffer the loop fills before it
      records `file_count`, so the loop finds nothing left to write when it notices. */
  function StopFirst(topic: seq<byte>, batchSize: int, patientId: string, sessionId: string,
                     msgs: seq<Payload>, k: nat): (e: Ending)
    requires k <= |msgs|
    ensures e.unwritten == []
  {
    var lg := NewLogger(topic, batchSize, patientId, sessionId).(running := true);
    var rs := TagAll(msgs[..k], patientId, sessionId);
    var st := Flush(BufferAll(Batching(lg, [], []), rs));
    Ending(st.files, st.lg.fileIndex, [])
  }

  /** With the intended `stop`, every buffered record is written, in order, to files
      numbered from 0, and the manifest counts every file, whether or not another message
      arrives. */
  lemma StopFirstCountsAll(topic: seq<byte>, batchSize: int, patientId: string, sessionId: string,
                           msgs: seq<Payload>, k: nat)
    requires k <= |msgs|
    ensures var e := StopFirst(topic, batchSize, patientId, sessionId, msgs, k);
            && e.fileCount == |e.files|
            && Rows(e.files) == TagAll(msgs[..k], patientId, sessionId)
            && NumberedFrom(e.files, patientId, 0)
  {
    var lg := NewLogger(topic, batchSize, patientId, sessionId).(running := true);
    var rs := TagAll(msgs[..k], patientId, sessionId);
    var st := BufferAll(Batching(lg, [], []), rs);
    BufferedFromFresh(lg, rs);
    FlushKeeps(lg, st, rs);
    assert Rows(Flush(st).files) + [] == rs;
  }

  /** Without a shutdown, after `n` messages exactly `n div b` batches have been
      written and `n mod b` records wait in the buffer. */
  lemma BatchArithmetic(n: nat, b: nat, batches: nat, pending: nat)
    requires b >= 1 && n == batches * b + pending && pending < b
    ensures batches == n / b && pending == n % b
  {
    var q, r := n / b, n % b;
    assert n == q * b + r && 0 <= r < b;
    if batches > q {
      MulMonotone(q + 1, batches, b);
      assert false;
    } else if batches < q {
      MulMonotone(batches + 1, q, b);
      assert false;
    }
  }

  lemma MulMonotone(x: nat, y: nat, b: nat)
    requires x <= y
    ensures x * b <= y * b
  {
    var d := y - x;
    assert y * b == x * b + d * b;
  }

  /** The rows of files that each hold `b` rows number `b` per file. */
  lemma {:induction false} RowsLength(files: seq<File>, b: nat)
    requires forall k :: 0 <= k < |files| ==> |files[k].rows| == b
    ensures |Rows(files)| == |files| * b
    decreases |files|
  {
    if |files| > 0 {
      RowsLength(files[..|files| - 1], b);
    }
  }

  /** The div/mod law for the loop's results. */
  method LogWithoutShutdown(lg: Logger, items: seq<Arrival>)
    returns (files: seq<File>, pending: seq<Payload>)
    requires forall k :: 0 <= k < |items| ==> !items[k].shutdown
    requires lg.batchSize >= 1
    ensures |files| == |items| / lg.batchSize
    ensures |pending| == |items| % lg.batchSize
    ensures Rows(files) + pending == Tagged(items, lg.patientId, lg.sessionId)
  {
    var lg', shutDown;
    lg', files, pending, shutDown := LogDataLoop(lg, items);
    ProcessedAll(items);
    RowsLength(files, lg.batchSize);
    BatchArithmetic(|items|, lg.batchSize, |files|, |pending|);
  }

  lemma {:induction false} ProcessedAll(items: seq<Arrival>)
    requires forall k :: 0 <= k < |items| ==> !items[k].shutdown
    ensures Processed(items) == items
    decreases |items|
  {
    if |items| > 0 {
      ProcessedAll(items[1..]);
    }
  }
}

=== FILE: hr_monitor.dfy ===
/** `SingleChannelHRMonitor` (signal_processing/src/filters.py): a ring buffer of lead-II
    samples, windowed R-peak detection, de-duplication of re-detected peaks by recency,
    a bounded FIFO of plausible RR intervals, and BPM = 60 / mean(RR). */
module HeartRate {
  import opened Common
  import opened RingBuffer

  /** RR intervals outside (0.25 s, 2.0 s), i.e. outside 30..240 BPM, are discarded. */
  const RrLow: real := 0.25
  const RrHigh: real := 2.0

  predicate Plausible(rr: real)
  {
    RrLow < rr < RrHigh
  }

  datatype Monitor = Monitor(
    fs: nat,                 // sampling frequency in Hz
    ring: Ring,              // the `values`/`timestamps` circular buffer
    minDistance: nat,        // `int(0.3 * fs)`: minimum peak spacing in samples
    peakTimes: seq<real>,    // `r_peak_times`: every accepted R-peak, oldest first
    rrIntervals: seq<real>,  // `rr_intervals`: the most recent plausible RR intervals
    rrBufferSize: nat)       // `rr_buffer_size`

  /** The de-duplication threshold `min_distance / fs`, in seconds. */
  function MinGap(m: Monitor): (g: real)
    requires m.fs > 0
    ensures g >= 0.0
    ensures g * m.fs as real == m.minDistance as real
  {
    m.minDistance as real / m.fs as real
  }

  /** Consecutive entries are more than `gap` apart. */
  predicate Spaced(ts: seq<real>, gap: real)
  {
    forall k :: 0 <= k < |Gaps(ts)| ==> Gaps(ts)[k] > gap
  }

  /** The gaps between consecutive accepted peaks. */
  function Gaps(ts: seq<real>): (ds: seq<real>)
    ensures |ds| == if |ts| == 0 then 0 else |ts| - 1
  {
    if |ts| == 0 then [] else seq(|ts| - 1, i requires 0 <= i < |ts| - 1 => ts[i + 1] - ts[i])
  }

  /** The plausible ones among `ds`, in order. */
  function KeepPlausible(ds: seq<real>): (ks: seq<real>)
    ensures AllWithin(ks, RrLow, RrHigh)
    ensures |ks| <= |ds|
  {
    if |ds| == 0 then []
    else
      var init := KeepPlausible(ds[..|ds| - 1]);
      var d := ds[|ds| - 1];
      if Plausible(d) then init + [d] else init
  }

  /** Reference definition of the RR FIFO: the newest `rr_buffer_size` plausible gaps
      between consecutive accepted peaks. */
  function ExpectedRr(peakTimes: seq<real>, size: nat): seq<real>
  {
    LastN(KeepPlausible(Gaps(peakTimes)), size)
  }

  /** The monitor invariant. */
  predicate Inv(m: Monitor)
  {
    && m.fs > 0
    && Valid(m.ring)
    && Spaced(m.peakTimes, MinGap(m))
    && m.rrIntervals == ExpectedRr(m.peakTimes, m.rrBufferSize)
    && AllWithin(m.rrIntervals, RrLow, RrHigh)
    && |m.rrIntervals| <= m.rrBufferSize
  }

  /** The reference RR FIFO is bounded and holds plausible intervals only. */
  lemma ExpectedRrBounded(ts: seq<real>, size: nat)
    ensures |ExpectedRr(ts, size)| <= size
    ensures AllWithin(ExpectedRr(ts, size), RrLow, RrHigh)
  {
    var ks := KeepPlausible(Gaps(ts));
    var rr := ExpectedRr(ts, size);
    forall i | 0 <= i < |rr| ensures RrLow < rr[i] < RrHigh {
      assert rr[i] == ks[|ks| - |rr| + i];
    }
  }

  lemma GapsSnoc(ts: seq<real>, t: real)
    requires |ts| > 0
    ensures Gaps(ts + [t]) == Gaps(ts) + [t - ts[|ts| - 1]]
  {
    var g, g' := Gaps(ts), Gaps(ts + [t]);
    assert |g'| == |g| + 1;
    forall i | 0 <= i < |g'| ensures g'[i] == (g + [t - ts[|ts| - 1]])[i] {
      if i < |g| {
        assert g'[i] == (ts + [t])[i + 1] - (ts + [t])[i];
      }
    }
  }

  lemma KeepPlausibleSnoc(ds: seq<real>, d: real)
    ensures KeepPlausible(ds + [d]) == KeepPlausible(ds) + (if Plausible(d) then [d] else [])
  {
    assert (ds + [d])[..|ds|] == ds;
  }

  /** `__init__(fs, buffer_duration_sec, rr_buffer_size)`. */
  function NewMonitor(fs: nat, bufferDurationSec: nat, rrBufferSize: nat): (m: Monitor)
    requires fs * bufferDurationSec > 0
    ensures Inv(m)
    ensures Capacity(m.ring) == fs * bufferDurationSec && Size(m.ring) == 0
    ensures m.minDistance * 10 <= 3 * fs < (m.minDistance + 1) * 10
    ensures m.peakTimes == [] && m.rrIntervals == []
    ensures m.fs == fs && m.rrBufferSize == rrBufferSize
  {
    Monitor(fs, Empty(fs * bufferDurationSec), 3 * fs / 10, [], [], rrBufferSize)
  }

  /** `append(value, timestamp)`: only the ring buffer changes. */
  function AppendSample(m: Monitor, value: real, time: real): (m': Monitor)
    requires Inv(m)
    ensures Inv(m')
    ensures Contents(m'.ring) == LastN(Contents(m.ring) + [Sample(value, time)], Capacity(m.ring))
    ensures m'.peakTimes == m.peakTimes && m'.rrIntervals == m.rrIntervals
    ensures m'.fs == m.fs && m'.minDistance == m.minDistance && m'.rrBufferSize == m.rrBufferSize
    ensures Capacity(m'.ring) == Capacity(m.ring)
  {
    m.(ring := Append(m.ring, Sample(value, time)))
  }

  /** `_update_rr_intervals(new_time)`: record `new_time - last` when a previous peak
      exists and the interval is plausible, then evict the head once if over capacity. */
  function UpdateRr(m: Monitor, t: real): (rr: seq<real>)
    requires |m.rrIntervals| <= m.rrBufferSize
    ensures |rr| <= m.rrBufferSize
    ensures (|m.peakTimes| == 0 || !Plausible(t - m.peakTimes[|m.peakTimes| - 1]))
            ==> rr == m.rrIntervals
    ensures |m.peakTimes| > 0 && Plausible(t - m.peakTimes[|m.peakTimes| - 1])
            ==> rr == LastN(m.rrIntervals + [t - m.peakTimes[|m.peakTimes| - 1]], m.rrBufferSize)
  {
    if |m.peakTimes| == 0 then m.rrIntervals
    else
      var rr := t - m.peakTimes[|m.peakTimes| - 1];
      if Plausible(rr) then
        var grown := m.rrIntervals + [rr];
        if |grown| > m.rrBufferSize then grown[1..] else grown
      else m.rrIntervals
  }

  /** Whether `t` passes the recency test against the last accepted peak. */
  predicate IsNewPeak(m: Monitor, t: real)
    requires m.fs > 0
  {
    |m.peakTimes| == 0 || t - m.peakTimes[|m.peakTimes| - 1] > MinGap(m)
  }

  /** On a monitor in its invariant, the recency test against the last peak is the same
      as being more than `min_distance / fs` after every accepted peak. */
  lemma NewPeakClearsAll(m: Monitor, t: real)
    requires Inv(m)
    ensures IsNewPeak(m, t) <==> forall k :: 0 <= k < |m.peakTimes| ==> t - m.peakTimes[k] > MinGap(m)
  {
    var ts := m.peakTimes;
    if IsNewPeak(m, t) {
      forall k | 0 <= k < |ts| ensures t - ts[k] > MinGap(m) {
        if k < |ts| - 1 {
          SpacedApart(ts, MinGap(m), k, |ts| - 1);
        }
      }
    }
  }

  /** One iteration of the `for t in peak_times` loop. */
  function AcceptPeak(m: Monitor, t: real): (m': Monitor)
    requires Inv(m)
    ensures Inv(m')
    ensures m'.ring == m.ring && m'.fs == m.fs && m'.minDistance == m.minDistance
    ensures m'.rrBufferSize == m.rrBufferSize
    ensures IsNewPeak(m, t) ==> m'.peakTimes == m.peakTimes + [t]
    ensures !IsNewPeak(m, t) ==> m' == m
  {
    if IsNewPeak(m, t) then
      var m' := m.(rrIntervals := UpdateRr(m, t), peakTimes := m.peakTimes + [t]);
      AcceptKeepsInv(m, t, m');
      m'
    else m
  }

  lemma AcceptKeepsInv(m: Monitor, t: real, m': Monitor)
    requires Inv(m) && IsNewPeak(m, t)
    requires m' == m.(rrIntervals := UpdateRr(m, t), peakTimes := m.peakTimes + [t])
    ensures Inv(m')
  {
    var ts, rr', g := m'.peakTimes, m'.rrIntervals, MinGap(m);
    assert Spaced(ts, g) && rr' == ExpectedRr(ts, m.rrBufferSize)
        && AllWithin(rr', RrLow, RrHigh) && |rr'| <= m.rrBufferSize by {
      SnocKeepsParts(m.peakTimes, m.rrIntervals, m.rrBufferSize, t, rr', g);
    }
    assert m'.fs == m.fs && m'.minDistance == m.minDistance;
    assert MinGap(m') == g;
  }

  /** The parts of the invariant about peaks and intervals survive appending a peak
      that passes the recency test, with the intervals updated as `UpdateRr` does. */
  lemma SnocKeepsParts(ts: seq<real>, rr: seq<real>, size: nat, t: real, rr': seq<real>, gap: real)
    requires Spaced(ts, gap) && rr == ExpectedRr(ts, size) && |rr| <= size
    requires |ts| == 0 || t - ts[|ts| - 1] > gap
    requires |ts| == 0 || !Plausible(t - ts[|ts| - 1]) ==> rr' == rr
    requires |ts| > 0 && Plausible(t - ts[|ts| - 1]) ==> rr' == LastN(rr + [t - ts[|ts| - 1]], size)
    ensures Spaced(ts + [t], gap) && rr' == ExpectedRr(ts + [t], size)
    ensures AllWithin(rr', RrLow, RrHigh) && |rr'| <= size
  {
    SpacedSnoc(ts, t, gap);
    RrSnoc(ts, rr, size, t, rr');
    ExpectedRrBounded(ts + [t], size);
  }

  lemma SpacedSnoc(ts: seq<real>, t: real, gap: real)
    requires Spaced(ts, gap)
    requires |ts| == 0 || t - ts[|ts| - 1] > gap
    ensures Spaced(ts + [t], gap)
  {
    if |ts| == 0 {
      assert Gaps(ts + [t]) == [];
    } else {
      GapsSnoc(ts, t);
    }
  }

  /** Recording `t` keeps the RR FIFO equal to its reference definition. */
  lemma RrSnoc(ts: seq<real>, rr: seq<real>, size: nat, t: real, rr': seq<real>)
    requires rr == ExpectedRr(ts, size) && |rr| <= size
    requires |ts| == 0 || !Plausible(t - ts[|ts| - 1]) ==> rr' == rr
    requires |ts| > 0 && Plausible(t - ts[|ts| - 1]) ==> rr' == LastN(rr + [t - ts[|ts| - 1]], size)
    ensures rr' == ExpectedRr(ts + [t], size)
  {
    var ts' := ts + [t];
    if |ts| == 0 {
      assert Gaps(ts') == [];
    } else {
      var d := t - ts[|ts| - 1];
      var ks := KeepPlausible(Gaps(ts));
      assert KeepPlausible(Gaps(ts')) == ks + (if Plausible(d) then [d] else []) by {
        GapsSnoc(ts, t);
        KeepPlausibleSnoc(Gaps(ts), d);
      }
      if Plausible(d) {
        assert LastN(ks + [d], size) == LastN(rr + [d], size) by {
          LastNSnoc(ks, d, size);
          LastNSnoc(rr, d, size);
          assert LastN(rr, size) == rr;
        }
      }
    }
  }

  /** The `for t in peak_times` loop over the detected peak times, in order: accepted
      peaks are only ever appended, each one is one of the detected times, and every
      detected time is either accepted or within `min_distance / fs` after a peak that was
      already accepted when it came up. */
  function AcceptPeaks(m: Monitor, ts: seq<real>): (m': Monitor)
    requires Inv(m)
    ensures Inv(m')
    ensures m'.ring == m.ring && m'.fs == m.fs && m'.minDistance == m.minDistance
    ensures m'.rrBufferSize == m.rrBufferSize
    ensures m.peakTimes <= m'.peakTimes
    ensures forall t :: t in m'.peakTimes[|m.peakTimes|..] ==> t in ts
    ensures AllCovered(m'.peakTimes, m.peakTimes, ts, MinGap(m))
    decreases |ts|
  {
    if |ts| == 0 then m
    else
      var m1 := AcceptPeak(m, ts[0]);
      var m' := AcceptPeaks(m1, ts[1..]);
      AppendedFrom(m.peakTimes, m1.peakTimes, m'.peakTimes, ts);
      CoveredAfter(m, m1, m'.peakTimes, ts);
      m'
  }

  /** `t` was accepted, or it lies within `gap` after an accepted peak that was among
      the times `before` it. */
  predicate Covered(peaks: seq<real>, before: seq<real>, t: real, gap: real)
  {
    t in peaks || exists p :: p in before && p in peaks && t - p <= gap
  }

  /** Every time of `ts` is `Covered`, each against the times `before` it and the ones
      of `ts` ahead of it. */
  predicate AllCovered(peaks: seq<real>, before: seq<real>, ts: seq<real>, gap: real)
  {
    forall j :: 0 <= j < |ts| ==> Covered(peaks, before + ts[..j], ts[j], gap)
  }

  lemma CoveredAfter(m: Monitor, m1: Monitor, peaks: seq<real>, ts: seq<real>)
    requires Inv(m) && |ts| > 0 && m1 == AcceptPeak(m, ts[0])
    requires m1.peakTimes <= peaks
    requires AllCovered(peaks, m1.peakTimes, ts[1..], MinGap(m1))
    ensures AllCovered(peaks, m.peakTimes, ts, MinGap(m))
  {
    assert MinGap(m1) == MinGap(m);
    var n := |m.peakTimes|;
    assert Covered(peaks, m.peakTimes + ts[..0], ts[0], MinGap(m)) by {
      if IsNewPeak(m, ts[0]) {
        assert peaks[n] == m1.peakTimes[n] == ts[0];
      } else {
        assert m1 == m && n > 0;
        var p := peaks[n - 1];
        assert p == m.peakTimes[n - 1] && p in peaks;
        assert p in m.peakTimes + ts[..0];
        assert ts[0] - p <= MinGap(m);
      }
    }
    forall j | 1 <= j < |ts| ensures Covered(peaks, m.peakTimes + ts[..j], ts[j], MinGap(m)) {
      assert Covered(peaks, m1.peakTimes + ts[1..][..j - 1], ts[1..][j - 1], MinGap(m1));
      CoveredShift(m.peakTimes, m1.peakTimes, peaks, ts, j, MinGap(m));
    }
  }

  /** One step of `CoveredAfter`: a witness among the times before `ts[j]` after the first
      step is also one before it from the start. */
  lemma CoveredShift(p0: seq<real>, p1: seq<real>, peaks: seq<real>, ts: seq<real>, j: int, gap: real)
    requires 1 <= j < |ts| && (p1 == p0 || p1 == p0 + [ts[0]])
    requires Covered(peaks, p1 + ts[1..][..j - 1], ts[1..][j - 1], gap)
    ensures Covered(peaks, p0 + ts[..j], ts[j], gap)
  {
    assert ts[1..][j - 1] == ts[j];
    if ts[j] !in peaks {
      var p :| p in p1 + ts[1..][..j - 1] && p in peaks && ts[j] - p <= gap;
      assert p in p0 + ts[..j] by {
        assert p0 + ts[..j] == p0 + [ts[0]] + ts[1..][..j - 1];
      }
    }
  }

  /** Running the loop over one more detected time is one more `AcceptPeak`. */
  lemma {:induction false} AcceptPeaksSnoc(m: Monitor, ts: seq<real>, t: real)
    requires Inv(m)
    ensures AcceptPeaks(m, ts + [t]) == AcceptPeak(AcceptPeaks(m, ts), t)
    decreases |ts|
  {
    if |ts| == 0 {
      assert ts + [t] == [t];
      AcceptPeaksOne(m, t);
    } else {
      assert (ts + [t])[0] == ts[0] && (ts + [t])[1..] == ts[1..] + [t];
      AcceptPeaksSnoc(AcceptPeak(m, ts[0]), ts[1..], t);
    }
  }

  /** The `j`-th detected time is accepted exactly when it passes the recency test against
      the monitor the loop has built from the times before it. */
  lemma AcceptedIffNew(m: Monitor, ts: seq<real>, j: int)
    requires Inv(m) && 0 <= j < |ts|
    ensures var before := AcceptPeaks(m, ts[..j]);
            IsNewPeak(before, ts[j]) <==> AcceptPeaks(m, ts[..j + 1]).peakTimes == before.peakTimes + [ts[j]]
  {
    assert ts[..j + 1] == ts[..j] + [ts[j]];
    AcceptPeaksSnoc(m, ts[..j], ts[j]);
  }

  lemma AppendedFrom(p0: seq<real>, p1: seq<real>, p2: seq<real>, ts: seq<real>)
    requires |ts| > 0
    requires p1 == p0 || p1 == p0 + [ts[0]]
    requires p1 <= p2
    requires forall t :: t in p2[|p1|..] ==> t in ts[1..]
    ensures p0 <= p2
    ensures forall t :: t in p2[|p0|..] ==> t in ts
  {
    forall t | t in p2[|p0|..] ensures t in ts {
      var k :| |p0| <= k < |p2| && p2[k] == t;
      if k < |p1| {
        assert p2[k] == p1[k] == ts[0];
      } else {
        assert p2[k] in p2[|p1|..];
      }
    }
  }

  /** `compute_bpm()`: undefined below two intervals, else 60 / mean. */
  function ComputeBpm(rr: seq<real>): (bpm: Option<real>)
    requires AllWithin(rr, RrLow, RrHigh)
    ensures bpm.None? <==> |rr| < 2
    ensures bpm.Some? ==> bpm.value * Sum(rr) == 60.0 * |rr| as real
    ensures bpm.Some? ==> 30.0 < bpm.value < 240.0
  {
    if |rr| < 2 then None
    else
      var n := |rr| as real;
      SumWithin(rr, RrLow, RrHigh);
      var mean := Sum(rr) / n;
      BpmOfMean(Sum(rr), n);
      Some(60.0 / mean)
  }

  /** For a mean RR interval in (0.25, 2.0) seconds, 60 / mean lies in (30, 240) BPM. */
  lemma BpmOfMean(total: real, n: real)
    requires n > 0.0 && n * RrLow < total < n * RrHigh
    ensures var bpm := 60.0 / (total / n);
            bpm * total == 60.0 * n && 30.0 < bpm < 240.0
  {
    var mean := total / n;
    assert mean * n == total;
    assert RrLow < mean < RrHigh;
    var bpm := 60.0 / mean;
    assert bpm * mean == 60.0;
    assert bpm * total == 60.0 * n by {
      assert bpm * total == bpm * (mean * n) == (bpm * mean) * n;
    }
    assert 30.0 < bpm < 240.0;
  }

  /** What `find_peaks` promises: ascending indices into the window it was given. */
  predicate PeakIndices(ps: seq<int>, n: int)
  {
    && (forall k :: 0 <= k < |ps| ==> 0 <= ps[k] < n)
    && (forall k :: 0 < k < |ps| ==> ps[k - 1] < ps[k])
  }

  ghost predicate PeakOracle(findPeaks: seq<real> -> seq<int>)
  {
    forall s :: PeakIndices(findPeaks(s), |s|)
  }

  /** `timestamps[peaks]`: the capture times of the detected peaks. */
  function PeakTimesOf(win: seq<Sample>, peaks: seq<int>): (ts: seq<real>)
    requires PeakIndices(peaks, |win|)
    ensures |ts| == |peaks|
    ensures forall k :: 0 <= k < |ts| ==> ts[k] == win[peaks[k]].time
  {
    seq(|peaks|, k requires 0 <= k < |peaks| => win[peaks[k]].time)
  }

  /** `signal = values[indices]`. */
  function ValuesOf(win: seq<Sample>): (vs: seq<real>)
    ensures |vs| == |win|
    ensures forall i :: 0 <= i < |vs| ==> vs[i] == win[i].value
  {
    seq(|win|, i requires 0 <= i < |win| => win[i].value)
  }

  /** Whether `t` is the capture time of some sample in `win`. */
  predicate TimeInWindow(win: seq<Sample>, t: real)
  {
    exists i :: 0 <= i < |win| && win[i].time == t
  }

  /** Result of `process_latest_window`: the updated monitor with the BPM it returns, or
      the `ValueError` NumPy raises when asked for the maximum of an empty window. */
  datatype WindowResult = Estimate(monitor: Monitor, bpm: Option<real>) | EmptyWindowError

  /** `process_latest_window(window_size)` with `find_peaks` supplied as `findPeaks`. */
  function ProcessLatestWindow(m: Monitor, w: int, findPeaks: seq<real> -> seq<int>): (res: WindowResult)
    requires Inv(m)
    requires PeakOracle(findPeaks)
    ensures !IsReady(m.ring, w) ==> res == Estimate(m, None)
    ensures IsReady(m.ring, w) && w <= 0 <==> res.EmptyWindowError?
    ensures res.Estimate? ==> && Inv(res.monitor)
                              && res.monitor.ring == m.ring
                              && m.peakTimes <= res.monitor.peakTimes
    ensures IsReady(m.ring, w) && w > 0 ==>
              var win := Window(m.ring, w);
              res.monitor == AcceptPeaks(m, PeakTimesOf(win, findPeaks(ValuesOf(win))))
    ensures res.Estimate? && IsReady(m.ring, w) ==>
              && Inv(res.monitor)
              && res.bpm == ComputeBpm(res.monitor.rrIntervals)
              && forall k :: |m.peakTimes| <= k < |res.monitor.peakTimes| ==>
                   TimeInWindow(Window(m.ring, w), res.monitor.peakTimes[k])
  {
    if !IsReady(m.ring, w) then Estimate(m, None)
    else if w <= 0 then EmptyWindowError
    else
      var win := Window(m.ring, w);
      var peaks := findPeaks(ValuesOf(win));
      var times := PeakTimesOf(win, peaks);
      var m' := AcceptPeaks(m, times);
      NewPeaksInWindow(m, m', win, peaks, times);
      Estimate(m', ComputeBpm(m'.rrIntervals))
  }

  lemma NewPeaksInWindow(m: Monitor, m': Monitor, win: seq<Sample>, peaks: seq<int>, times: seq<real>)
    requires PeakIndices(peaks, |win|) && times == PeakTimesOf(win, peaks)
    requires m.peakTimes <= m'.peakTimes
    requires forall t :: t in m'.peakTimes[|m.peakTimes|..] ==> t in times
    ensures forall k :: |m.peakTimes| <= k < |m'.peakTimes| ==> TimeInWindow(win, m'.peakTimes[k])
  {
    forall k | |m.peakTimes| <= k < |m'.peakTimes|
      ensures TimeInWindow(win, m'.peakTimes[k])
    {
      assert m'.peakTimes[k] in m'.peakTimes[|m.peakTimes|..];
      var j :| 0 <= j < |times| && times[j] == m'.peakTimes[k];
      assert win[peaks[j]].time == m'.peakTimes[k];
    }
  }

  /** Spacing by a non-negative gap keeps any two entries more than `gap` apart, so in
      particular the sequence is strictly increasing. */
  lemma {:induction false} SpacedApart(ts: seq<real>, gap: real, i: int, j: int)
    requires gap >= 0.0 && Spaced(ts, gap)
    requires 0 <= i < j < |ts|
    ensures ts[j] - ts[i] > gap
    decreases j - i
  {
    assert Gaps(ts)[j - 1] == ts[j] - ts[j - 1];
    if j > i + 1 {
      SpacedApart(ts, gap, i, j - 1);
    }
  }

  /** Accepted R-peak times are strictly increasing, and any two of them are more than
      `min_distance / fs` seconds apart. */
  lemma AcceptedPeaksOrdered(m: Monitor)
    requires Inv(m)
    ensures forall i, j :: 0 <= i < j < |m.peakTimes| ==> m.peakTimes[j] - m.peakTimes[i] > MinGap(m)
    ensures forall i, j :: 0 <= i < j < |m.peakTimes| ==> m.peakTimes[i] < m.peakTimes[j]
  {
    forall i, j | 0 <= i < j < |m.peakTimes|
      ensures m.peakTimes[j] - m.peakTimes[i] > MinGap(m)
    {
      SpacedApart(m.peakTimes, MinGap(m), i, j);
    }
  }

  /** A peak that was already accepted, seen again in an overlapping window, is ignored:
      neither the peak list nor the RR intervals change. */
  lemma NeverAcceptedTwice(m: Monitor, t: real)
    requires Inv(m) && t in m.peakTimes
    ensures AcceptPeak(m, t) == m
  {
    var ts := m.peakTimes;
    var i :| 0 <= i < |ts| && ts[i] == t;
    if i < |ts| - 1 {
      SpacedApart(ts, MinGap(m), i, |ts| - 1);
    }
    assert !IsNewPeak(m, t);
  }

  /** The RR FIFO evolves as a bounded queue: a recorded interval goes at the back, and on
      overflow exactly the front (oldest) entry is dropped. */
  lemma RrFifo(m: Monitor, t: real)
    requires |m.rrIntervals| <= m.rrBufferSize && |m.peakTimes| > 0
    requires Plausible(t - m.peakTimes[|m.peakTimes| - 1])
    ensures var d := t - m.peakTimes[|m.peakTimes| - 1];
            && (|m.rrIntervals| < m.rrBufferSize ==> UpdateRr(m, t) == m.rrIntervals + [d])
            && (|m.rrIntervals| == m.rrBufferSize > 0 ==> UpdateRr(m, t) == m.rrIntervals[1..] + [d])
  {
    var d := t - m.peakTimes[|m.peakTimes| - 1];
    var xs, n := m.rrIntervals, m.rrBufferSize;
    if |xs| == n > 0 {
      assert (xs + [d])[1..] == xs[1..] + [d];
    }
  }

  /** The first accepted peak records no RR interval; an implausible gap records none. */
  lemma NoIntervalWithoutPlausiblePredecessor(m: Monitor, t: real)
    requires Inv(m)
    requires |m.peakTimes| == 0 || !Plausible(t - m.peakTimes[|m.peakTimes| - 1])
    ensures AcceptPeak(m, t).rrIntervals == m.rrIntervals
  {
  }

  /** For a monitor with no peaks yet (such as a fresh `NewMonitor(100, 10, 8)`), peaks at
      0 s and 1 s give one RR interval and no estimate; a third peak at 2 s gives two
      one-second intervals and exactly 60 BPM. */
  lemma {:induction false} TwoIntervalsNeeded(m: Monitor)
    requires Inv(m) && m.peakTimes == [] && m.rrBufferSize >= 2 && MinGap(m) < 1.0
    ensures ComputeBpm(AcceptPeaks(m, [0.0, 1.0]).rrIntervals) == None
    ensures ComputeBpm(AcceptPeaks(m, [0.0, 1.0, 2.0]).rrIntervals) == Some(60.0)
  {
    FreshMonitorRr(m);
    assert ComputeBpm([1.0, 1.0]) == Some(60.0) by {
      assert Sum([1.0, 1.0]) == 2.0 by {
        assert [1.0, 1.0][..1] == [1.0];
        assert [1.0][..0] == [];
      }
    }
  }

  /** Peaks one second apart on a monitor with no peaks: the first records nothing, each
      later one records a one-second interval. */
  lemma FreshMonitorRr(m: Monitor)
    requires Inv(m) && m.peakTimes == [] && m.rrBufferSize >= 2 && MinGap(m) < 1.0
    ensures AcceptPeaks(m, [0.0, 1.0]).rrIntervals == [1.0]
    ensures AcceptPeaks(m, [0.0, 1.0, 2.0]).rrIntervals == [1.0, 1.0]
  {
    FreshTwoPeaks(m);
    FreshThreePeaks(m);
  }

  lemma FreshTwoPeaks(m: Monitor)
    requires Inv(m) && m.peakTimes == [] && m.rrBufferSize >= 2 && MinGap(m) < 1.0
    ensures AcceptPeaks(m, [0.0, 1.0]).peakTimes == [0.0, 1.0]
    ensures AcceptPeaks(m, [0.0, 1.0]).rrIntervals == [1.0]
  {
    var m1 := AcceptPeak(m, 0.0);
    FirstPeakRecordsNothing(m, 0.0);
    NextPeakOneSecondLater(m1, 1.0);
    AcceptPeaksTwo(m, 0.0, 1.0);
  }

  lemma FreshThreePeaks(m: Monitor)
    requires Inv(m) && m.peakTimes == [] && m.rrBufferSize >= 2 && MinGap(m) < 1.0
    ensures AcceptPeaks(m, [0.0, 1.0, 2.0]).rrIntervals == [1.0, 1.0]
  {
    var m1 := AcceptPeak(m, 0.0);
    var m2 := AcceptPeak(m1, 1.0);
    assert m2.peakTimes == [0.0, 1.0] && m2.rrIntervals == [1.0] by {
      FirstPeakRecordsNothing(m, 0.0);
      NextPeakOneSecondLater(m1, 1.0);
    }
    assert MinGap(m2) == MinGap(m) && m2.rrBufferSize == m.rrBufferSize;
    ThirdPeakOneSecondLater(m2);
    AcceptPeaksThree(m, 0.0, 1.0, 2.0);
  }

  lemma ThirdPeakOneSecondLater(m: Monitor)
    requires Inv(m) && m.peakTimes == [0.0, 1.0] && m.rrIntervals == [1.0]
    requires m.rrBufferSize >= 2 && MinGap(m) < 1.0
    ensures AcceptPeak(m, 2.0).rrIntervals == [1.0, 1.0]
  {
    NextPeakOneSecondLater(m, 2.0);
  }

  lemma AcceptPeaksOne(m: Monitor, a: real)
    requires Inv(m)
    ensures AcceptPeaks(m, [a]) == AcceptPeak(m, a)
  {
    assert [a][1..] == [];
  }

  lemma AcceptPeaksTwo(m: Monitor, a: real, b: real)
    requires Inv(m)
    ensures AcceptPeaks(m, [a, b]) == AcceptPeak(AcceptPeak(m, a), b)
  {
    assert [a, b][1..] == [b];
    AcceptPeaksOne(AcceptPeak(m, a), b);
  }

  lemma AcceptPeaksThree(m: Monitor, a: real, b: real, c: real)
    requires Inv(m)
    ensures AcceptPeaks(m, [a, b, c]) == AcceptPeak(AcceptPeak(AcceptPeak(m, a), b), c)
  {
    assert [a, b, c][1..] == [b, c];
    AcceptPeaksTwo(AcceptPeak(m, a), b, c);
  }

  /** The first peak is accepted and records no interval. */
  lemma FirstPeakRecordsNothing(m: Monitor, t: real)
    requires Inv(m) && m.peakTimes == []
    ensures AcceptPeak(m, t).peakTimes == [t] && AcceptPeak(m, t).rrIntervals == []
  {
    assert Gaps(m.peakTimes) == [];
  }

  /** A peak one second after the last one, with room in the FIFO, is accepted and
      records a one-second interval at the back. */
  lemma NextPeakOneSecondLater(m: Monitor, t: real)
    requires Inv(m) && |m.peakTimes| > 0 && t - m.peakTimes[|m.peakTimes| - 1] == 1.0
    requires MinGap(m) < 1.0 && |m.rrIntervals| < m.rrBufferSize
    ensures AcceptPeak(m, t).peakTimes == m.peakTimes + [t]
    ensures AcceptPeak(m, t).rrIntervals == m.rrIntervals + [1.0]
  {
    RrFifo(m, t);
  }

  /** The default monitor meets the conditions of `TwoIntervalsNeeded`. */
  lemma DefaultMonitorFresh()
    ensures var m := NewMonitor(100, 10, 8);
            Inv(m) && m.peakTimes == [] && m.rrBufferSize >= 2 && MinGap(m) < 1.0
  {
  }
}

=== FILE: leads.dfy ===
/** Electrode triples and the six derived limb leads of `compute_leads_from_sample`
    (signal_processing/src/filters.py): Einthoven's bipolar leads I, II, III and
    Goldberger's augmented leads aVR, aVL, aVF. */
module Leads {

  /** One (filtered or raw) sample of the three electrode potentials `[RA, LA, LL]`. */
  datatype Electrodes = Electrodes(ra: real, la: real, ll: real)

  /** The names of the derived leads, in the order the dictionary literal lists them. */
  const LeadOrder: seq<string> := ["I", "II", "III", "aVR", "aVL", "aVF"]

  /** The key set of every derived-lead dictionary. */
  const LeadNames: set<string> := {"I", "II", "III", "aVR", "aVL", "aVF"}

  /** `compute_leads_from_sample`: always the six keys; over the reals Einthoven's law
      I + III = II holds, the augmented leads sum to zero, and each lead is the
      potential difference the standard defines for it. */
  function ComputeLeads(e: Electrodes): (leads: map<string, real>)
    ensures leads.Keys == LeadNames
    ensures leads["I"] + leads["III"] == leads["II"]
    ensures leads["aVR"] + leads["aVL"] + leads["aVF"] == 0.0
    ensures leads["I"] == e.la - e.ra && leads["II"] == e.ll - e.ra
    ensures 2.0 * leads["aVF"] == leads["II"] + leads["III"]
    ensures 2.0 * leads["aVL"] == leads["I"] - leads["III"]
    ensures 2.0 * leads["aVR"] == -(leads["I"] + leads["II"])
  {
    map["I" := e.la - e.ra,
        "II" := e.ll - e.ra,
        "III" := e.ll - e.la,
        "aVR" := e.ra - (e.la + e.ll) / 2.0,
        "aVL" := e.la - (e.ra + e.ll) / 2.0,
        "aVF" := e.ll - (e.ra + e.la) / 2.0]
  }

  /** The listed order names exactly the key set, without repetition. */
  lemma LeadOrderNamesKeys()
    ensures |LeadOrder| == |LeadNames| == 6
    ensures forall k :: 0 <= k < |LeadOrder| ==> LeadOrder[k] in LeadNames
    ensures forall i, j :: 0 <= i < j < |LeadOrder| ==> LeadOrder[i] != LeadOrder[j]
  {
    assert LeadNames == {"I", "II", "III", "aVR", "aVL", "aVF"};
  }

  /** The electrodes shifted by a common-mode potential `c`. */
  function Shift(e: Electrodes, c: real): (e': Electrodes)
    ensures e'.la - e'.ra == e.la - e.ra && e'.ll - e'.ra == e.ll - e.ra
  {
    Electrodes(e.ra + c, e.la + c, e.ll + c)
  }

  /** Every lead is a potential difference: a potential common to all three electrodes
      (a DC offset, mains pick-up on the body) cancels out of all six leads. */
  lemma CommonModeRejected(e: Electrodes, c: real)
    ensures ComputeLeads(Shift(e, c)) == ComputeLeads(e)
  {
    var a, b := ComputeLeads(Shift(e, c)), ComputeLeads(e);
    assert forall k :: k in LeadNames ==> a[k] == b[k];
  }

  /** Two samples give the same six leads exactly when they differ by a common-mode
      potential. */
  lemma SameLeadsIffCommonMode(e1: Electrodes, e2: Electrodes)
    ensures ComputeLeads(e1) == ComputeLeads(e2) <==> Shift(e1, e2.ra - e1.ra) == e2
  {
    if ComputeLeads(e1) == ComputeLeads(e2) {
      assert ComputeLeads(e1)["I"] == ComputeLeads(e2)["I"];
      assert ComputeLeads(e1)["II"] == ComputeLeads(e2)["II"];
    } else if Shift(e1, e2.ra - e1.ra) == e2 {
      CommonModeRejected(e1, e2.ra - e1.ra);
    }
  }
}

=== FILE: pipeline.dfy ===
/** The signal processor (signal_processing/src/signal_processing.py): the serial reader's
    line policy, `open_serial_device`, and one iteration of `SignalProcessor.run` —
    filter, derive leads, feed lead II to the heart-rate monitor, publish raw then
    filtered. The filter engine and the peak detector are parameters. */
module Pipeline {
  import opened Common
  import opened RingBuffer
  import opened HeartRate
  import opened Leads
  import opened Wire

  // ---------------------------------------------------------------- main loop

  /** `RawSample`: the electrode triple and the time it was read off the serial line. */
  datatype RawSample = RawSample(signal: Electrodes, timestamp: real)

  /** One message handed to the publishing socket: its topic and its payload dictionary
      (the bytes on the wire are `Frame(topic, pack(payload))`). */
  datatype Publication = Publication(topic: seq<byte>, payload: Payload)

  /** The state `run` carries across iterations: the filter engine's state (opaque) and
      the heart-rate monitor. */
  datatype Processor<F> = Processor(filterState: F, monitor: Monitor)

  /** The window `process_latest_window` is called with (its default). */
  const WindowSize: int := 100

  datatype Iteration<F> = Iteration(next: Processor<F>, published: seq<Publication>)

  /** The six leads derived from the filtered sample. */
  function FilteredLeads<F>(p: Processor<F>, sample: RawSample,
                            filter: (F, Electrodes) -> (F, Electrodes)): (leads: map<string, real>)
    ensures leads.Keys == LeadNames
  {
    ComputeLeads(filter(p.filterState, sample.signal).1)
  }

  /** The monitor after `hr_monitor.append(leads["II"], timestamp)`. */
  function Fed<F>(p: Processor<F>, sample: RawSample,
                  filter: (F, Electrodes) -> (F, Electrodes)): (m: Monitor)
    requires Inv(p.monitor)
    ensures Inv(m)
  {
    AppendSample(p.monitor, FilteredLeads(p, sample, filter)["II"], sample.timestamp)
  }

  /** One pass of the main loop for a dequeued sample. */
  function Step<F>(p: Processor<F>, sample: RawSample,
                   filter: (F, Electrodes) -> (F, Electrodes),
                   findPeaks: seq<real> -> seq<int>): (it: Iteration<F>)
    requires Inv(p.monitor) && PeakOracle(findPeaks)
    ensures Inv(it.next.monitor)
    ensures it.next.filterState == filter(p.filterState, sample.signal).0
    ensures |it.published| == 2
    ensures it.published[0].topic == RawTopic() && it.published[1].topic == FilteredTopic()
    ensures DecodeRaw(it.published[0].payload) == Some(RawRecord(sample.timestamp, sample.signal))
    ensures DecodeFiltered(it.published[1].payload)
            == Some(FilteredRecord(sample.timestamp, FilteredLeads(p, sample, filter),
                                   ProcessLatestWindow(Fed(p, sample, filter), WindowSize, findPeaks).bpm))
    ensures ProcessLatestWindow(Fed(p, sample, filter), WindowSize, findPeaks)
            == Estimate(it.next.monitor, ProcessLatestWindow(Fed(p, sample, filter), WindowSize, findPeaks).bpm)
  {
    var leads := FilteredLeads(p, sample, filter);
    var fed := Fed(p, sample, filter);
    var res := ProcessLatestWindow(fed, WindowSize, findPeaks);
    assert res.Estimate?;
    var msgFiltered := FilteredPayload(sample.timestamp, leads, res.bpm);
    var msgRaw := RawPayload(sample.timestamp, sample.signal);
    RawRoundTrip(sample.timestamp, sample.signal);
    FilteredRoundTrip(sample.timestamp, leads, res.bpm);
    Iteration(Processor(filter(p.filterState, sample.signal).0, res.monitor),
              [Publication(RawTopic(), msgRaw), Publication(FilteredTopic(), msgFiltered)])
  }

  /** Lead II enters the monitor's buffer as the newest sample, stamped with the
      sample's timestamp, before the estimate is read. */
  lemma LeadTwoFedFirst<F>(p: Processor<F>, sample: RawSample,
                           filter: (F, Electrodes) -> (F, Electrodes),
                           findPeaks: seq<real> -> seq<int>)
    requires Inv(p.monitor) && PeakOracle(findPeaks)
    ensures var it := Step(p, sample, filter, findPeaks);
            var ii := FilteredLeads(p, sample, filter)["II"];
            Contents(it.next.monitor.ring)
            == LastN(Contents(p.monitor.ring) + [Sample(ii, sample.timestamp)], Capacity(p.monitor.ring))
  {
  }

  /** Both payloads of one iteration carry the sample's timestamp. */
  lemma SameTimestamp<F>(p: Processor<F>, sample: RawSample,
                         filter: (F, Electrodes) -> (F, Electrodes),
                         findPeaks: seq<real> -> seq<int>)
    requires Inv(p.monitor) && PeakOracle(findPeaks)
    ensures var pubs := Step(p, sample, filter, findPeaks).published;
            && pubs[0].payload["timestamp"] == pubs[1].payload["timestamp"]
            && pubs[0].payload["timestamp"] == Num(sample.timestamp)
  {
  }

  /** The filter engine alone over the samples, in order: its final state and the
      filtered electrode triple of each sample. */
  function FilterRun<F>(st: F, samples: seq<RawSample>,
                        filter: (F, Electrodes) -> (F, Electrodes)): (r: (F, seq<Electrodes>))
    ensures |r.1| == |samples|
    decreases |samples|
  {
    if |samples| == 0 then (st, [])
    else
      var (st1, es) := FilterRun(st, samples[..|samples| - 1], filter);
      var (st2, e) := filter(st1, samples[|samples| - 1].signal);
      (st2, es + [e])
  }

  /** The main loop over the samples the queue delivers, in order. */
  function Run<F>(p: Processor<F>, samples: seq<RawSample>,
                  filter: (F, Electrodes) -> (F, Electrodes),
                  findPeaks: seq<real> -> seq<int>): (it: Iteration<F>)
    requires Inv(p.monitor) && PeakOracle(findPeaks)
    ensures Inv(it.next.monitor)
    ensures it.next.filterState == FilterRun(p.filterState, samples, filter).0
    decreases |samples|
  {
    if |samples| == 0 then Iteration(p, [])
    else
      var before := Run(p, samples[..|samples| - 1], filter, findPeaks);
      var last := Step(before.next, samples[|samples| - 1], filter, findPeaks);
      Iteration(last.next, before.published + last.published)
  }

  /** `raw` and `filtered` are the two publications of sample `s`, whose filtered
      electrode triple is `e`: raw topic first, carrying the sample itself, then the
      filtered topic with the same timestamp and the six leads derived from `e`. */
  predicate PublishedPair(raw: Publication, filtered: Publication, s: RawSample, e: Electrodes)
  {
    && raw.topic == RawTopic()
    && filtered.topic == FilteredTopic()
    && DecodeRaw(raw.payload) == Some(RawRecord(s.timestamp, s.signal))
    && DecodeFiltered(filtered.payload).Some?
    && DecodeFiltered(filtered.payload).value.timestamp == s.timestamp
    && DecodeFiltered(filtered.payload).value.leads == ComputeLeads(e)
  }

  lemma StepPublishesPair<F>(p: Processor<F>, sample: RawSample,
                             filter: (F, Electrodes) -> (F, Electrodes),
                             findPeaks: seq<real> -> seq<int>)
    requires Inv(p.monitor) && PeakOracle(findPeaks)
    ensures var pubs := Step(p, sample, filter, findPeaks).published;
            PublishedPair(pubs[0], pubs[1], sample, filter(p.filterState, sample.signal).1)
  {
  }

  /** Publications `2i` and `2i + 1` are the pair of sample `i`, with filtered triple
      `es[i]`, for every sample and nothing else. */
  predicate Paired(pubs: seq<Publication>, samples: seq<RawSample>, es: seq<Electrodes>)
  {
    && |pubs| == 2 * |samples| && |es| == |samples|
    && forall i :: 0 <= i < |samples| ==> PublishedPair(pubs[2 * i], pubs[2 * i + 1], samples[i], es[i])
  }

  /** Every dequeued sample is published exactly twice, raw first then filtered, in
      dequeue order: publication `2i` is the raw record of sample `i` and `2i + 1` its
      filtered record with the same timestamp and the leads of its filtered signal. */
  lemma {:induction false} RunPublishesInOrder<F>(p: Processor<F>, samples: seq<RawSample>,
                                                  filter: (F, Electrodes) -> (F, Electrodes),
                                                  findPeaks: seq<real> -> seq<int>)
    requires Inv(p.monitor) && PeakOracle(findPeaks)
    ensures Paired(Run(p, samples, filter, findPeaks).published, samples,
                   FilterRun(p.filterState, samples, filter).1)
    decreases |samples|
  {
    if |samples| > 0 {
      var init := samples[..|samples| - 1];
      RunLastPair(p, samples, filter, findPeaks);
      RunPublishesInOrder(p, init, filter, findPeaks);
      PairedSnoc(Run(p, samples, filter, findPeaks).published, Run(p, init, filter, findPeaks).published,
                 samples, FilterRun(p.filterState, samples, filter).1,
                 FilterRun(p.filterState, init, filter).1);
    }
  }

  /** Pairing extends by one sample at the end. */
  lemma PairedSnoc(pubs: seq<Publication>, before: seq<Publication>, samples: seq<RawSample>,
                   es: seq<Electrodes>, es0: seq<Electrodes>)
    requires |samples| > 0 && |es| == |samples|
    requires Paired(before, samples[..|samples| - 1], es0)
    requires |pubs| == |before| + 2 && pubs[..|before|] == before && es[..|samples| - 1] == es0
    requires PublishedPair(pubs[|before|], pubs[|before| + 1], samples[|samples| - 1], es[|samples| - 1])
    ensures Paired(pubs, samples, es)
  {
    var n := |samples|;
    forall i | 0 <= i < n ensures PublishedPair(pubs[2 * i], pubs[2 * i + 1], samples[i], es[i]) {
      if i < n - 1 {
        assert samples[i] == samples[..n - 1][i] && es[i] == es0[i];
        assert pubs[2 * i] == before[2 * i] && pubs[2 * i + 1] == before[2 * i + 1];
      }
    }
  }

  /** The loop over a non-empty queue publishes what the loop over all but the last
      sample publishes, then the pair of the last sample. */
  lemma RunLastPair<F>(p: Processor<F>, samples: seq<RawSample>,
                       filter: (F, Electrodes) -> (F, Electrodes),
                       findPeaks: seq<real> -> seq<int>)
    requires Inv(p.monitor) && PeakOracle(findPeaks) && |samples| > 0
    ensures var n := |samples|;
            var pubs := Run(p, samples, filter, findPeaks).published;
            var before := Run(p, samples[..n - 1], filter, findPeaks).published;
            var es := FilterRun(p.filterState, samples, filter).1;
            && |pubs| == |before| + 2
            && pubs[..|before|] == before
            && PublishedPair(pubs[|before|], pubs[|before| + 1], samples[n - 1], es[n - 1])
            && es[..n - 1] == FilterRun(p.filterState, samples[..n - 1], filter).1
  {
    var n := |samples|;
    var init, s := samples[..n - 1], samples[n - 1];
    var prev := Run(p, init, filter, findPeaks);
    var fr := FilterRun(p.filterState, init, filter);
    var last := Step(prev.next, s, filter, findPeaks);
    assert Run(p, samples, filter, findPeaks).published == prev.published + last.published;
    assert FilterRun(p.filterState, samples, filter).1 == fr.1 + [filter(fr.0, s.signal).1];
    assert prev.next.filterState == fr.0;
    StepPublishesPair(prev.next, s, filter, findPeaks);
  }

  // ---------------------------------------------------------------- serial reader

  /** What one `readline()` produced, after the UTF-8 decode and the JSON parse that the
      model leaves abstract; a `Reading` also carries the clock value taken for it. */
  datatype Line =
    | Empty                               // a read timeout or an empty line
    | BadUtf8                             // UnicodeDecodeError
    | BadJson                             // JSONDecodeError
    | MissingKey                          // valid JSON without one of RA, LA, LL
    | Reading(signal: Electrodes, clock: real)

  /** Lines that the reader skips without ending the stream. */
  predicate Skipped(l: Line)
  {
    l.Empty? || l.BadUtf8? || l.BadJson?
  }

  /** The reference reading of a sequence of lines (after the discarded first one): the
      readings in order, up to the first line that raises `KeyError`. */
  function Accepted(lines: seq<Line>): (out: seq<RawSample>)
    ensures |out| <= |lines|
  {
    if |lines| == 0 then []
    else match lines[0]
      case MissingKey => []
      case Reading(e, t) => [RawSample(e, t)] + Accepted(lines[1..])
      case _ => Accepted(lines[1..])
  }

  /** Some line raises `KeyError`, which nothing in the reader catches. */
  predicate Raises(lines: seq<Line>)
  {
    exists k :: 0 <= k < |lines| && lines[k].MissingKey?
  }

  /** `ecg_serial_stream` over the lines the device returns: discard the first line, skip
      empty and undecodable lines, yield every reading, and stop with an error at the
      first line missing a key. */
  method SerialStream(lines: seq<Line>) returns (samples: seq<RawSample>, failed: bool)
    ensures samples == (if |lines| == 0 then [] else Accepted(lines[1..]))
    ensures failed <==> |lines| > 0 && Raises(lines[1..])
  {
    samples, failed := [], false;
    if |lines| == 0 {
      return;
    }
    var rest := lines[1..];  // the first line is read and thrown away
    var i := 0;
    while i < |rest|
      invariant 0 <= i <= |rest|
      invariant samples + Accepted(rest[i..]) == Accepted(rest)
      invariant forall k :: 0 <= k < i ==> !rest[k].MissingKey?
    {
      var line := rest[i];
      assert rest[i..][1..] == rest[i + 1..];
      if line.MissingKey? {
        failed := true;
        assert Accepted(rest[i..]) == [];
        return;
      }
      if line.Reading? {
        samples := samples + [RawSample(line.signal, line.clock)];
      }
      i := i + 1;
    }
  }

  /** A skipped line anywhere after the first changes nothing the reader yields. */
  lemma SkippedLineInvisible(before: seq<Line>, l: Line, after: seq<Line>)
    requires Skipped(l)
    ensures Accepted(before + [l] + after) == Accepted(before + after)
    decreases |before|
  {
    if |before| > 0 {
      assert (before + [l] + after)[1..] == before[1..] + [l] + after;
      assert (before + after)[1..] == before[1..] + after;
      SkippedLineInvisible(before[1..], l, after);
    } else {
      assert before + [l] + after == [l] + after;
      assert before + after == after;
      assert ([l] + after)[1..] == after;
    }
  }

  /** Nothing after a line missing a key is ever read. */
  lemma {:induction false} NothingAfterMissingKey(before: seq<Line>, after: seq<Line>)
    ensures Accepted(before + [MissingKey] + after) == Accepted(before + [MissingKey])
    decreases |before|
  {
    if |before| > 0 {
      assert (before + [MissingKey] + after)[1..] == before[1..] + [MissingKey] + after;
      assert (before + [MissingKey])[1..] == before[1..] + [MissingKey];
      NothingAfterMissingKey(before[1..], after);
    }
  }

  // ---------------------------------------------------------------- opening the device

  /** How `open_serial_device` ends: with a port opened on `path` at attempt `attempt`,
      by raising `SerialException` after `attempts` tries and `sleeps` sleeps, or by
      falling off the end of the function (an implicit `None`). */
  datatype OpenOutcome =
    | Opened(path: string, attempt: int)
    | Raised(attempts: nat, sleeps: nat)
    | ReturnedNone

  /** `open_serial_device` as written: the log-and-raise is indented inside the `for`
      body, so the first failed attempt raises (after sleeping when `retries > 1`), and a
      `retries` below one skips the loop and returns `None`. `opens(p, k)` says whether
      `serial.Serial(p)` succeeds at attempt `k`; `realPath` is `os.path.realpath(path)`. */
  function OpenSerialAsWritten(path: string, realPath: string, retries: int,
                               opens: (string, int) -> bool): (o: OpenOutcome)
    ensures o.Opened? ==> o.attempt == 1
    ensures o.Raised? ==> o.attempts == 1
    ensures o.ReturnedNone? <==> retries < 1
  {
    if retries < 1 then ReturnedNone
    else if opens(path, 1) then Opened(path, 1)
    else if realPath != path && opens(realPath, 1) then Opened(realPath, 1)
    else Raised(1, if 1 < retries then 1 else 0)
  }

  /** One attempt fails on both the given path and, when it differs, the resolved one. */
  predicate AttemptFails(path: string, realPath: string, k: int, opens: (string, int) -> bool)
  {
    !opens(path, k) && (realPath != path ==> !opens(realPath, k))
  }

  /** The loop the docstring describes: attempts `from` .. `retries`, sleeping between
      failed attempts, raising only once all have failed. */
  function OpenFrom(path: string, realPath: string, from: int, retries: int,
                    opens: (string, int) -> bool): (o: OpenOutcome)
    requires 1 <= from
    ensures !o.ReturnedNone?
    ensures o.Opened? ==> && from <= o.attempt <= retries
                          && (o.path == path || o.path == realPath)
                          && opens(o.path, o.attempt)
                          && forall k :: from <= k < o.attempt ==> AttemptFails(path, realPath, k, opens)
    ensures o.Raised? <==> forall k :: from <= k <= retries ==> AttemptFails(path, realPath, k, opens)
    ensures o.Raised? ==> o.attempts == (if retries < from then 0 else retries - from + 1)
                          && o.sleeps == (if retries <= from then 0 else retries - from)
    decreases retries - from
  {
    if retries < from then Raised(0, 0)
    else if opens(path, from) then
      assert !AttemptFails(path, realPath, from, opens);
      Opened(path, from)
    else if realPath != path && opens(realPath, from) then
      assert !AttemptFails(path, realPath, from, opens);
      Opened(realPath, from)
    else if from == retries then Raised(1, 0)
    else
      var o := OpenFrom(path, realPath, from + 1, retries, opens);
      if o.Raised? then Raised(o.attempts + 1, o.sleeps + 1) else o
  }

  /** `open_serial_device` corrected: the raise after the loop. */
  function OpenSerial(path: string, realPath: string, retries: int,
                      opens: (string, int) -> bool): (o: OpenOutcome)
    ensures !o.ReturnedNone?
    ensures o.Opened? ==> 1 <= o.attempt <= retries && opens(o.path, o.attempt)
    ensures o.Raised? <==> forall k :: 1 <= k <= retries ==> AttemptFails(path, realPath, k, opens)
  {
    OpenFrom(path, realPath, 1, retries, opens)
  }

  /** The two versions agree whenever the first attempt decides the outcome. */
  lemma AsWrittenAgreesOnFirstAttempt(path: string, realPath: string, retries: int,
                                      opens: (string, int) -> bool)
    requires retries >= 1
    requires !AttemptFails(path, realPath, 1, opens) || retries == 1
    ensures OpenSerialAsWritten(path, realPath, retries, opens) == OpenSerial(path, realPath, retries, opens)
  {
  }

  /** The discrepancy: with the default three retries and a device that appears on the
      second attempt, the function as written raises while the intended one opens it;
      with zero retries it returns `None` instead of raising. */
  lemma OpenSerialCounterexample()
    ensures var opens := (p: string, k: int) => k == 2;
            && OpenSerialAsWritten("/dev/ttyV0", "/dev/pts/3", 3, opens) == Raised(1, 1)
            && OpenSerial("/dev/ttyV0", "/dev/pts/3", 3, opens) == Opened("/dev/ttyV0", 2)
    ensures var opens := (p: string, k: int) => false;
            && OpenSerialAsWritten("/dev/ttyV0", "/dev/ttyV0", 0, opens) == ReturnedNone
            && OpenSerial("/dev/ttyV0", "/dev/ttyV0", 0, opens) == Raised(0, 0)
  {
    var opens := (p: string, k: int) => k == 2;
    assert "/dev/ttyV0" != "/dev/pts/3";
    assert OpenFrom("/dev/ttyV0", "/dev/pts/3", 2, 3, opens) == Opened("/dev/ttyV0", 2);
  }
}

=== FILE: ring_buffer.dfy ===
/** The fixed-capacity circular buffer inside `SingleChannelHRMonitor`
    (signal_processing/src/filters.py): parallel `values`/`timestamps` arrays of length
    `capacity`, a logical `start` and a `count`, addressed modulo the capacity. */
module RingBuffer {
  import opened Common

  /** One buffered sample: a lead value and the time it was captured at. */
  datatype Sample = Sample(value: real, time: real)

  /** `slots` plays the two parallel NumPy arrays; its length is the capacity. */
  datatype Ring = Ring(slots: seq<Sample>, start: int, count: int)

  function Capacity(r: Ring): nat
  {
    |r.slots|
  }

  /** The buffer invariant: a non-empty store, `0 <= start < capacity` and
      `0 <= count <= capacity`. */
  predicate Valid(r: Ring)
  {
    && |r.slots| > 0
    && 0 <= r.start < |r.slots|
    && 0 <= r.count <= |r.slots|
  }

  /** Python's `x % c` for `0 <= x < 2c`, the only range the buffer ever indexes with. */
  lemma ModBelowTwice(x: int, c: int)
    requires 0 < c && 0 <= x < 2 * c
    ensures x % c == if x < c then x else x - c
  {
    if x >= c {
      assert x == c + (x - c);
    }
  }

  /** The physical slot that holds logical position `i` (0 = oldest). */
  function Slot(r: Ring, i: int): (k: nat)
    requires Valid(r) && 0 <= i < |r.slots|
    ensures k < |r.slots|
    ensures k == (r.start + i) % |r.slots|
  {
    ModBelowTwice(r.start + i, |r.slots|);
    if r.start + i < |r.slots| then r.start + i else r.start + i - |r.slots|
  }

  /** Two distinct logical positions never share a physical slot. */
  lemma SlotInjective(r: Ring, i: int, j: int)
    requires Valid(r) && 0 <= i < |r.slots| && 0 <= j < |r.slots| && i != j
    ensures Slot(r, i) != Slot(r, j)
  {
  }

  /** The abstract contents: the buffered samples, oldest first. */
  function Contents(r: Ring): (xs: seq<Sample>)
    requires Valid(r)
    ensures |xs| == r.count
  {
    seq(r.count, i requires 0 <= i < r.count => r.slots[Slot(r, i)])
  }

  /** An empty buffer of the given capacity (`np.zeros`, `_start = 0`, `_count = 0`). */
  function Empty(capacity: nat): (r: Ring)
    requires capacity > 0
    ensures Valid(r) && Capacity(r) == capacity
    ensures Contents(r) == []
  {
    Ring(seq(capacity, _ => Sample(0.0, 0.0)), 0, 0)
  }

  /** `append`: write at `(start + count) % capacity`; grow `count` until full, after that
      advance `start`, overwriting the oldest sample. */
  function Append(r: Ring, s: Sample): (r': Ring)
    requires Valid(r)
    ensures Valid(r') && Capacity(r') == Capacity(r)
    ensures r'.count == if r.count < Capacity(r) then r.count + 1 else r.count
    ensures Contents(r') == LastN(Contents(r) + [s], Capacity(r))
  {
    var cap := |r.slots|;
    var idx := (r.start + r.count) % cap;
    ModBelowTwice(r.start + r.count, cap);
    ModBelowTwice(r.start + 1, cap);
    var r' := if r.count < cap then Ring(r.slots[idx := s], r.start, r.count + 1)
              else Ring(r.slots[idx := s], (r.start + 1) % cap, r.count);
    AppendContents(r, s, r');
    r'
  }

  lemma AppendContents(r: Ring, s: Sample, r': Ring)
    requires Valid(r)
    requires |r'.slots| == |r.slots|
    requires r'.slots == r.slots[(r.start + r.count) % |r.slots| := s]
    requires r.count < |r.slots| ==> r'.start == r.start && r'.count == r.count + 1
    requires r.count == |r.slots| ==> r'.start == (r.start + 1) % |r.slots| && r'.count == r.count
    ensures Valid(r')
    ensures Contents(r') == LastN(Contents(r) + [s], |r.slots|)
  {
    ModBelowTwice(r.start + r.count, |r.slots|);
    ModBelowTwice(r.start + 1, |r.slots|);
    if r.count < |r.slots| {
      AppendGrows(r, s, r');
    } else {
      AppendOverwrites(r, s, r');
    }
  }

  /** Below capacity the new sample goes after the old contents. */
  lemma AppendGrows(r: Ring, s: Sample, r': Ring)
    requires Valid(r) && r.count < |r.slots|
    requires r'.slots == r.slots[(r.start + r.count) % |r.slots| := s]
    requires r'.start == r.start && r'.count == r.count + 1
    ensures Valid(r')
    ensures Contents(r') == Contents(r) + [s]
  {
    var old_ := Contents(r);
    var new_ := Contents(r');
    forall i | 0 <= i < r.count
      ensures new_[i] == old_[i]
    {
      assert Slot(r', i) == Slot(r, i);
      SlotInjective(r, i, r.count);
    }
    assert new_[r.count] == s by {
      assert Slot(r', r.count) == Slot(r, r.count);
    }
  }

  /** At capacity the new sample lands on the old `start`, and every survivor moves down
      one position. */
  lemma AppendOverwrites(r: Ring, s: Sample, r': Ring)
    requires Valid(r) && r.count == |r.slots|
    requires r'.slots == r.slots[(r.start + r.count) % |r.slots| := s]
    requires r'.start == (r.start + 1) % |r.slots| && r'.count == r.count
    ensures Valid(r')
    ensures Contents(r') == LastN(Contents(r) + [s], |r.slots|)
  {
    var cap := |r.slots|;
    ModBelowTwice(r.start + r.count, cap);
    ModBelowTwice(r.start + 1, cap);
    var old_ := Contents(r);
    var new_ := Contents(r');
    forall i | 0 <= i < cap - 1
      ensures new_[i] == old_[i + 1]
    {
      assert Slot(r', i) == Slot(r, i + 1);
      SlotInjective(r, i + 1, 0);
    }
    assert new_[cap - 1] == s by {
      assert Slot(r', cap - 1) == r.start;
    }
    assert LastN(old_ + [s], cap) == old_[1..] + [s];
  }

  /** `size()`. */
  function Size(r: Ring): int
  {
    r.count
  }

  /** `is_ready(window_size)`: enough samples are buffered for a window of `w`. */
  predicate IsReady(r: Ring, w: int)
  {
    r.count >= w
  }

  /** A buffer is ready for `w` only when it holds at least `w` samples, so a window it is
      ready for never exceeds its capacity (every `w <= 0` is ready, even when empty). */
  lemma ReadyWindowFits(r: Ring, w: int)
    requires Valid(r) && IsReady(r, w)
    ensures w <= Capacity(r)
  {
  }

  /** The window read of `process_latest_window`: positions
      `(start + count - w + i) % capacity` for `i < w`. */
  function Window(r: Ring, w: int): (xs: seq<Sample>)
    requires Valid(r) && 0 <= w <= r.count
    ensures |xs| == w
  {
    seq(w, i requires 0 <= i < w => r.slots[(r.start + r.count - w + i) % |r.slots|])
  }

  /** The modular window read returns exactly the newest `w` buffered samples, oldest first. */
  lemma WindowIsNewest(r: Ring, w: int)
    requires Valid(r) && 0 <= w <= r.count
    ensures Window(r, w) == Contents(r)[r.count - w..]
  {
    var win := Window(r, w);
    var tail := Contents(r)[r.count - w..];
    forall i | 0 <= i < w
      ensures win[i] == tail[i]
    {
      assert (r.start + r.count - w + i) % |r.slots| == Slot(r, r.count - w + i);
    }
  }

  /** The buffer after appending `xs`, in order, to `r`. */
  function Feed(r: Ring, xs: seq<Sample>): (r': Ring)
    requires Valid(r)
    ensures Valid(r') && Capacity(r') == Capacity(r)
  {
    if |xs| == 0 then r else Append(Feed(r, xs[..|xs| - 1]), xs[|xs| - 1])
  }

  /** Filling an empty buffer with any history leaves exactly its newest `capacity`
      samples, in insertion order. */
  lemma {:induction false} FeedKeepsNewest(capacity: nat, xs: seq<Sample>)
    requires capacity > 0
    ensures Contents(Feed(Empty(capacity), xs)) == LastN(xs, capacity)
  {
    if |xs| > 0 {
      var init, x := xs[..|xs| - 1], xs[|xs| - 1];
      assert init + [x] == xs;
      var before := Feed(Empty(capacity), init);
      assert Feed(Empty(capacity), xs) == Append(before, x);
      FeedKeepsNewest(capacity, init);
      var l := LastN(init, capacity) + [x];
      assert Contents(Append(before, x)) == LastN(l, capacity);
      assert LastN(l, capacity) == LastN(init + [x], capacity) by {
        LastNSnoc(init, x, capacity);
      }
    }
  }

  /** After `capacity + k` appends the buffer is full and holds only `xs[k..]`: the oldest
      `k` samples are gone, and any window returns the newest samples of the history. */
  lemma {:induction false} OverwriteOldest(capacity: nat, xs: seq<Sample>, k: nat, w: int)
    requires capacity > 0 && |xs| == capacity + k
    requires 0 <= w <= capacity
    ensures Size(Feed(Empty(capacity), xs)) == capacity
    ensures Contents(Feed(Empty(capacity), xs)) == xs[k..]
    ensures Window(Feed(Empty(capacity), xs), w) == xs[|xs| - w..]
  {
    var r := Feed(Empty(capacity), xs);
    FeedKeepsNewest(capacity, xs);
    WindowIsNewest(r, w);
  }

  /** The window copy `values[indices]`, `timestamps[indices]` as a loop over the slots. */
  method ReadWindow(r: Ring, w: int) returns (values: seq<real>, times: seq<real>)
    requires Valid(r) && 0 <= w <= r.count
    ensures |values| == w && |times| == w
    ensures forall i :: 0 <= i < w ==>
              values[i] == Contents(r)[r.count - w + i].value
              && times[i] == Contents(r)[r.count - w + i].time
  {
    var cap := |r.slots|;
    var idx := (r.start + r.count - w) % cap;
    values, times := [], [];
    var i := 0;
    while i < w
      invariant 0 <= i <= w
      invariant 0 <= idx < cap
      invariant i < w ==> idx == Slot(r, r.count - w + i)
      invariant |values| == i && |times| == i
      invariant forall j :: 0 <= j < i ==>
                  values[j] == Contents(r)[r.count - w + j].value
                  && times[j] == Contents(r)[r.count - w + j].time
    {
      values := values + [r.slots[idx].value];
      times := times + [r.slots[idx].time];
      idx := if idx + 1 == cap then 0 else idx + 1;
      i := i + 1;
    }
  }
}

=== FILE: socket_stream.dfy ===
/** `ecg_socket_stream` (app/src/socket_stream.py) as a state machine driven by a scripted
    trace of what the environment answers: the outcome of each dial, what each `recv`
    returns, and the moments the stop event is set. Its output is the sequence of calls
    it makes and items it yields. */
module SocketStream {
  import opened Common
  import opened Wire

  /** The generator's arguments: `topic`, `address`, `recv_timeout_ms`,
      `reconnect_delay`. */
  datatype Config = Config(topic: seq<byte>, address: string, recvTimeoutMs: Option<int>,
                           reconnectDelay: real)

  /** The keyword arguments of `pynng.Sub0(**kwargs)`: `recv_timeout` only when a
      timeout was given. */
  function SocketOptions(c: Config): (kwargs: map<string, int>)
    ensures "recv_timeout" in kwargs <==> c.recvTimeoutMs.Some?
    ensures c.recvTimeoutMs.Some? ==> kwargs["recv_timeout"] == c.recvTimeoutMs.value
    ensures kwargs.Keys <= {"recv_timeout"}
  {
    if c.recvTimeoutMs.Some? then map["recv_timeout" := c.recvTimeoutMs.value] else map[]
  }

  /** What a `recv()` returns or raises. */
  datatype Received = Message(bytes: seq<byte>) | Closed | RecvError

  /** One answer from the environment. `StopSet` is the stop event being set; it may
      arrive while the generator waits on a dial or a recv, while it sleeps after a
      failure, while it is suspended at `yield`, or before it first runs. */
  datatype Event = StopSet | DialResult(ok: bool) | RecvResult(r: Received)

  /** The calls the generator makes and the items it yields. */
  datatype Action =
    | Open(options: map<string, int>)
    | Subscribe(topic: seq<byte>)
    | Dial(address: string)
    | Recv
    | Yield(data: Payload)
    | Sleep(seconds: real)

  /** Control points: the head of the outer loop, waiting for the dial, the head of the
      inner loop, waiting for a recv, and the outer exception handler. */
  datatype Phase = Top | AwaitDial | InnerHead | AwaitRecv | Failure

  /** Why a run ended: the generator returned because it saw the stop event, the trace
      ran out while it was waiting, or the trace answered a call it was not making. */
  datatype End = Stopped | Exhausted | Halted

  /** The calls made and items yielded, how the run ended, and how many events of the
      trace it consumed. */
  datatype Outcome = Outcome(actions: seq<Action>, end: End, consumed: nat)

  /** One connection attempt: a fresh socket, the subscription, then the dial. */
  function Connect(c: Config): (acts: seq<Action>)
    ensures |acts| == 3
    ensures acts[0] == Open(SocketOptions(c)) && acts[1] == Subscribe(c.topic) && acts[2] == Dial(c.address)
  {
    [Open(SocketOptions(c)), Subscribe(c.topic), Dial(c.address)]
  }

  function Emit(acts: seq<Action>, o: Outcome): Outcome
  {
    o.(actions := acts + o.actions)
  }

  function Consume(o: Outcome): Outcome
  {
    o.(consumed := o.consumed + 1)
  }

  /** Control points that move on without waiting for the environment rank above the
      ones they lead to. */
  function Rank(ph: Phase): nat
  {
    match ph
    case Failure => 3
    case Top => 2
    case InnerHead => 1
    case _ => 0
  }

  /** The stop event is set before the generator's next step: while it sleeps in the
      failure handler, while it is suspended at `yield`, or before it is first resumed. */
  predicate StopsNext(tr: seq<Event>)
  {
    |tr| > 0 && tr[0] == StopSet
  }

  /** The generator from control point `ph`, with the stop event currently `stopped`,
      against the trace `tr`. `unpack` is `msgpack.unpackb`, `None` when it raises. */
  function Run(c: Config, unpack: seq<byte> -> Option<Payload>, ph: Phase, stopped: bool,
               tr: seq<Event>): (o: Outcome)
    ensures o.consumed <= |tr|
    decreases |tr|, Rank(ph)
  {
    match ph
    case Top =>
      if stopped then Outcome([], Stopped, 0)
      else if StopsNext(tr) then Consume(Run(c, unpack, Top, true, tr[1..]))
      else Emit(Connect(c), Run(c, unpack, AwaitDial, false, tr))
    case AwaitDial =>
      if |tr| == 0 then Outcome([], Exhausted, 0)
      else (match tr[0]
        case StopSet => Consume(Run(c, unpack, AwaitDial, true, tr[1..]))
        case DialResult(ok) => Consume(Run(c, unpack, if ok then InnerHead else Failure, stopped, tr[1..]))
        case RecvResult(_) => Outcome([], Halted, 0))
    case InnerHead =>
      if stopped then Outcome([], Stopped, 0)
      else if StopsNext(tr) then Consume(Run(c, unpack, InnerHead, true, tr[1..]))
      else Emit([Recv], Run(c, unpack, AwaitRecv, false, tr))
    case AwaitRecv =>
      if |tr| == 0 then Outcome([], Exhausted, 0)
      else (match tr[0]
        case StopSet => Consume(Run(c, unpack, AwaitRecv, true, tr[1..]))
        case DialResult(_) => Outcome([], Halted, 0)
        case RecvResult(Message(f)) =>
          (match unpack(StripTopic(f, |c.topic|))
           case Some(d) => Consume(Emit([Yield(d)], Run(c, unpack, InnerHead, stopped, tr[1..])))
           case None => Consume(Run(c, unpack, Failure, stopped, tr[1..])))
        case RecvResult(Closed) => Consume(Run(c, unpack, Top, stopped, tr[1..]))
        case RecvResult(RecvError) => Consume(Run(c, unpack, Failure, stopped, tr[1..])))
    case Failure =>
      if stopped then Outcome([], Stopped, 0)
      else Emit([Sleep(c.reconnectDelay)], Run(c, unpack, Top, false, tr))
  }

  /** The generator as called: from the top of the outer loop, stop event clear. */
  function Stream(c: Config, unpack: seq<byte> -> Option<Payload>, tr: seq<Event>): (o: Outcome)
    ensures o.consumed <= |tr|
  {
    Run(c, unpack, Top, false, tr)
  }

  // ---------------------------------------------------------------- what is yielded

  /** The items among the actions, in order. */
  function Yields(acts: seq<Action>): (ys: seq<Payload>)
    ensures |ys| <= |acts|
  {
    if |acts| == 0 then []
    else (if acts[0].Yield? then [acts[0].data] else []) + Yields(acts[1..])
  }

  lemma {:induction false} YieldsAppend(a: seq<Action>, b: seq<Action>)
    ensures Yields(a + b) == Yields(a) + Yields(b)
    decreases |a|
  {
    if |a| > 0 {
      assert (a + b)[1..] == a[1..] + b;
      YieldsAppend(a[1..], b);
    } else {
      assert a + b == b;
    }
  }

  lemma {:induction false} NoYields(acts: seq<Action>)
    requires forall k :: 0 <= k < |acts| ==> !acts[k].Yield?
    ensures Yields(acts) == []
    decreases |acts|
  {
    if |acts| > 0 {
      NoYields(acts[1..]);
    }
  }

  /** The reference: the payloads of the received frames that unpack, in receive order. */
  function Decoded(c: Config, unpack: seq<byte> -> Option<Payload>, es: seq<Event>): (ds: seq<Payload>)
    ensures |ds| <= |es|
  {
    if |es| == 0 then [] else FrameItem(c, unpack, es[0]) + Decoded(c, unpack, es[1..])
  }

  /** The payload a received frame unpacks to, if any. */
  function FrameItem(c: Config, unpack: seq<byte> -> Option<Payload>, e: Event): (ds: seq<Payload>)
    ensures |ds| <= 1
  {
    match e
    case RecvResult(Message(f)) =>
      (match unpack(StripTopic(f, |c.topic|)) case Some(d) => [d] case None => [])
    case _ => []
  }

  /** Every yielded item is the unpacked remainder of a received frame after its first
      `len(topic)` bytes, one per frame that unpacks, in receive order, none twice. */
  lemma {:induction false} YieldsAreDecodedFrames(c: Config, unpack: seq<byte> -> Option<Payload>,
                                                  ph: Phase, stopped: bool, tr: seq<Event>)
    ensures var o := Run(c, unpack, ph, stopped, tr);
            Yields(o.actions) == Decoded(c, unpack, tr[..o.consumed])
    decreases |tr|, Rank(ph), 1
  {
    match ph
    case Top =>
      if !stopped && StopsNext(tr) {
        StopSeenAtNextCheck(c, unpack, Top, tr);
      } else if !stopped {
        var o' := Run(c, unpack, AwaitDial, false, tr);
        YieldsAreDecodedFrames(c, unpack, AwaitDial, false, tr);
        YieldsAppend(Connect(c), o'.actions);
        NoYields(Connect(c));
      }
    case InnerHead =>
      if !stopped && StopsNext(tr) {
        StopSeenAtNextCheck(c, unpack, InnerHead, tr);
      } else if !stopped {
        var o' := Run(c, unpack, AwaitRecv, false, tr);
        YieldsAreDecodedFrames(c, unpack, AwaitRecv, false, tr);
        YieldsAppend([Recv], o'.actions);
        NoYields([Recv]);
      }
    case Failure =>
      if !stopped {
        var o' := Run(c, unpack, Top, false, tr);
        YieldsAreDecodedFrames(c, unpack, Top, false, tr);
        YieldsAppend([Sleep(c.reconnectDelay)], o'.actions);
        NoYields([Sleep(c.reconnectDelay)]);
      }
    case AwaitDial =>
      if |tr| > 0 && !tr[0].RecvResult? {
        AfterDialEvent(c, unpack, stopped, tr);
      }
    case AwaitRecv =>
      if |tr| > 0 && !tr[0].DialResult? {
        AfterRecvEvent(c, unpack, stopped, tr);
      }
  }

  lemma {:induction false} AfterDialEvent(c: Config, unpack: seq<byte> -> Option<Payload>,
                                          stopped: bool, tr: seq<Event>)
    requires |tr| > 0 && !tr[0].RecvResult?
    ensures var o := Run(c, unpack, AwaitDial, stopped, tr);
            Yields(o.actions) == Decoded(c, unpack, tr[..o.consumed])
    decreases |tr|, 0, 0
  {
    var ph' := if tr[0].StopSet? then AwaitDial else if tr[0].ok then InnerHead else Failure;
    var st' := tr[0].StopSet? || stopped;
    var o' := Run(c, unpack, ph', st', tr[1..]);
    assert Run(c, unpack, AwaitDial, stopped, tr) == Consume(o');
    YieldsAreDecodedFrames(c, unpack, ph', st', tr[1..]);
    DecodedConsume(c, unpack, tr, o'.consumed);
  }

  lemma {:induction false} AfterRecvEvent(c: Config, unpack: seq<byte> -> Option<Payload>,
                                          stopped: bool, tr: seq<Event>)
    requires |tr| > 0 && !tr[0].DialResult?
    ensures var o := Run(c, unpack, AwaitRecv, stopped, tr);
            Yields(o.actions) == Decoded(c, unpack, tr[..o.consumed])
    decreases |tr|, 0, 0
  {
    var ph' := NextAfterRecv(c, unpack, tr[0]);
    var st' := stopped || tr[0].StopSet?;
    var o' := Run(c, unpack, ph', st', tr[1..]);
    var ys := if FrameItem(c, unpack, tr[0]) == [] then [] else [Yield(FrameItem(c, unpack, tr[0])[0])];
    assert Yields(ys) == FrameItem(c, unpack, tr[0]);
    var o := Run(c, unpack, AwaitRecv, stopped, tr);
    assert o.actions == ys + o'.actions && o.consumed == o'.consumed + 1 by {
      RecvStep(c, unpack, stopped, tr);
      if FrameItem(c, unpack, tr[0]) == [] {
        assert ys + o'.actions == o'.actions;
      }
    }
    assert Yields(o'.actions) == Decoded(c, unpack, tr[1..][..o'.consumed]) by {
      YieldsAreDecodedFrames(c, unpack, ph', st', tr[1..]);
    }
    assert Yields(o.actions) == FrameItem(c, unpack, tr[0]) + Decoded(c, unpack, tr[1..][..o'.consumed]) by {
      YieldsAppend(ys, o'.actions);
    }
    DecodedConsume(c, unpack, tr, o'.consumed);
  }

  /** One non-dial event while waiting on a recv: the item of a frame that unpacks is
      yielded, and the run goes on from `NextAfterRecv`. */
  lemma RecvStep(c: Config, unpack: seq<byte> -> Option<Payload>, stopped: bool, tr: seq<Event>)
    requires |tr| > 0 && !tr[0].DialResult?
    ensures var o' := Run(c, unpack, NextAfterRecv(c, unpack, tr[0]), stopped || tr[0].StopSet?, tr[1..]);
            var item := FrameItem(c, unpack, tr[0]);
            Run(c, unpack, AwaitRecv, stopped, tr)
              == Consume(if item == [] then o' else Emit([Yield(item[0])], o'))
  {
  }

  /** Where `Run` goes after consuming a non-dial event while waiting on a recv. */
  function NextAfterRecv(c: Config, unpack: seq<byte> -> Option<Payload>, e: Event): Phase
  {
    match e
    case StopSet => AwaitRecv
    case DialResult(_) => AwaitRecv
    case RecvResult(Message(f)) => if unpack(StripTopic(f, |c.topic|)).Some? then InnerHead else Failure
    case RecvResult(Closed) => Top
    case RecvResult(RecvError) => Failure
  }

  lemma DecodedConsume(c: Config, unpack: seq<byte> -> Option<Payload>, tr: seq<Event>, n: nat)
    requires n < |tr|
    ensures Decoded(c, unpack, tr[..n + 1]) == FrameItem(c, unpack, tr[0]) + Decoded(c, unpack, tr[1..][..n])
  {
    assert tr[..n + 1][1..] == tr[1..][..n];
  }

  // ---------------------------------------------------------------- reconnecting

  /** `pynng.Closed` breaks the inner loop and the outer loop dials again at once: a
      fresh socket, subscribe, dial, and no sleep; a stop set meanwhile is seen at the
      head of the outer loop, before any socket is made. */
  lemma ClosedRedialsAtOnce(c: Config, unpack: seq<byte> -> Option<Payload>, rest: seq<Event>)
    ensures var o := Run(c, unpack, AwaitRecv, false, [RecvResult(Closed)] + rest);
            var o' := Run(c, unpack, AwaitDial, false, rest);
            && (!StopsNext(rest) ==>
                  o.actions == Connect(c) + o'.actions && o.end == o'.end && o.consumed == o'.consumed + 1)
            && (StopsNext(rest) ==> o == Outcome([], Stopped, 2))
  {
    assert ([RecvResult(Closed)] + rest)[1..] == rest;
    if StopsNext(rest) {
      StopSeenAtNextCheck(c, unpack, Top, rest);
    }
  }

  /** Any other failure of a recv goes to the outer handler: sleep `reconnect_delay`, then
      a fresh connection attempt, unless the stop event is set during the sleep. */
  lemma RecvErrorSleepsThenRedials(c: Config, unpack: seq<byte> -> Option<Payload>, rest: seq<Event>)
    ensures var o := Run(c, unpack, AwaitRecv, false, [RecvResult(RecvError)] + rest);
            var o' := Run(c, unpack, AwaitDial, false, rest);
            && (!StopsNext(rest) ==>
                  o.actions == [Sleep(c.reconnectDelay)] + Connect(c) + o'.actions && o.end == o'.end)
            && (StopsNext(rest) ==> o == Outcome([Sleep(c.reconnectDelay)], Stopped, 2))
  {
    assert ([RecvResult(RecvError)] + rest)[1..] == rest;
    FailureRedials(c, unpack, rest);
  }

  /** A frame whose payload does not unpack is handled like any other error: the inner
      `except` catches only `Closed`. */
  lemma UndecodableFrameSleepsThenRedials(c: Config, unpack: seq<byte> -> Option<Payload>,
                                          f: seq<byte>, rest: seq<Event>)
    requires unpack(StripTopic(f, |c.topic|)).None?
    ensures var o := Run(c, unpack, AwaitRecv, false, [RecvResult(Message(f))] + rest);
            var o' := Run(c, unpack, AwaitDial, false, rest);
            && (!StopsNext(rest) ==>
                  o.actions == [Sleep(c.reconnectDelay)] + Connect(c) + o'.actions && o.end == o'.end)
            && (StopsNext(rest) ==> o == Outcome([Sleep(c.reconnectDelay)], Stopped, 2))
  {
    assert ([RecvResult(Message(f))] + rest)[1..] == rest;
    FailureRedials(c, unpack, rest);
  }

  /** A failed dial goes to the outer handler as well. */
  lemma DialFailureSleepsThenRedials(c: Config, unpack: seq<byte> -> Option<Payload>, rest: seq<Event>)
    ensures var o := Run(c, unpack, AwaitDial, false, [DialResult(false)] + rest);
            var o' := Run(c, unpack, AwaitDial, false, rest);
            && (!StopsNext(rest) ==>
                  o.actions == [Sleep(c.reconnectDelay)] + Connect(c) + o'.actions && o.end == o'.end)
            && (StopsNext(rest) ==> o == Outcome([Sleep(c.reconnectDelay)], Stopped, 2))
  {
    assert ([DialResult(false)] + rest)[1..] == rest;
    FailureRedials(c, unpack, rest);
  }

  /** The outer handler with the stop event clear: sleep, then a new attempt; a stop set
      during the sleep ends the generator at the head of the outer loop instead. */
  lemma FailureRedials(c: Config, unpack: seq<byte> -> Option<Payload>, rest: seq<Event>)
    ensures var o := Run(c, unpack, Failure, false, rest);
            var o' := Run(c, unpack, AwaitDial, false, rest);
            && (!StopsNext(rest) ==>
                  && o.actions == [Sleep(c.reconnectDelay)] + Connect(c) + o'.actions
                  && o.end == o'.end && o.consumed == o'.consumed)
            && (StopsNext(rest) ==> o == Outcome([Sleep(c.reconnectDelay)], Stopped, 1))
  {
    var o' := Run(c, unpack, AwaitDial, false, rest);
    assert Run(c, unpack, Failure, false, rest) == Emit([Sleep(c.reconnectDelay)], Run(c, unpack, Top, false, rest));
    if StopsNext(rest) {
      StopSeenAtNextCheck(c, unpack, Top, rest);
    } else {
      assert Run(c, unpack, Top, false, rest) == Emit(Connect(c), o');
      assert [Sleep(c.reconnectDelay)] + (Connect(c) + o'.actions)
             == [Sleep(c.reconnectDelay)] + Connect(c) + o'.actions;
    }
  }

  /** A stop set while the generator sleeps in the handler, or while it is suspended at
      `yield`, is seen at the next check: it returns with no further call. */
  lemma StopSeenAtNextCheck(c: Config, unpack: seq<byte> -> Option<Payload>, ph: Phase, tr: seq<Event>)
    requires (ph == Top || ph == InnerHead) && StopsNext(tr)
    ensures Run(c, unpack, ph, false, tr) == Outcome([], Stopped, 1)
    ensures Decoded(c, unpack, tr[..Run(c, unpack, ph, false, tr).consumed]) == []
  {
    assert Run(c, unpack, ph, true, tr[1..]) == Outcome([], Stopped, 0);
    assert tr[..1] == [StopSet];
    assert Decoded(c, unpack, [StopSet]) == [] by {
      assert [StopSet][1..] == [];
    }
  }

  /** A consumer that sets the stop event after taking an item gets nothing more: the
      generator resumes from `yield` and returns without another recv. */
  lemma StopAfterYield(c: Config, unpack: seq<byte> -> Option<Payload>, f: seq<byte>, d: Payload,
                       rest: seq<Event>)
    requires unpack(StripTopic(f, |c.topic|)) == Some(d)
    ensures Run(c, unpack, AwaitRecv, false, [RecvResult(Message(f)), StopSet] + rest)
            == Outcome([Yield(d)], Stopped, 2)
  {
    var tr := [RecvResult(Message(f)), StopSet] + rest;
    assert tr[1..] == [StopSet] + rest;
    StopSeenAtNextCheck(c, unpack, InnerHead, tr[1..]);
  }

  /** `n` failed dials in a row. */
  function DialFailures(n: nat): (tr: seq<Event>)
    ensures |tr| == n && forall k :: 0 <= k < n ==> tr[k] == DialResult(false)
  {
    if n == 0 then [] else [DialResult(false)] + DialFailures(n - 1)
  }

  /** The calls of `n` failed attempts: connect, then sleep, `n` times. */
  function FailedAttempts(c: Config, n: nat): (acts: seq<Action>)
    ensures |acts| == 4 * n
  {
    if n == 0 then [] else Connect(c) + [Sleep(c.reconnectDelay)] + FailedAttempts(c, n - 1)
  }

  /** There is no retry cap: after any number of failed dials the generator is still
      dialing, having slept once per failure. */
  lemma {:induction false} NoRetryCap(c: Config, unpack: seq<byte> -> Option<Payload>, n: nat)
    ensures Stream(c, unpack, DialFailures(n))
            == Outcome(FailedAttempts(c, n) + Connect(c), Exhausted, n)
  {
    if n == 0 {
      assert Run(c, unpack, AwaitDial, false, []) == Outcome([], Exhausted, 0);
    } else {
      var tr := DialFailures(n);
      assert tr[1..] == DialFailures(n - 1);
      NoRetryCap(c, unpack, n - 1);
      assert !StopsNext(DialFailures(n - 1));
      DialFailureSleepsThenRedials(c, unpack, DialFailures(n - 1));
      assert [DialResult(false)] + DialFailures(n - 1) == tr;
      var o' := Run(c, unpack, AwaitDial, false, DialFailures(n - 1));
      assert Connect(c) + o'.actions == FailedAttempts(c, n - 1) + Connect(c) by {
        assert !StopsNext(DialFailures(n - 1));
        assert Stream(c, unpack, DialFailures(n - 1)) == Emit(Connect(c), o');
      }
      var o := Run(c, unpack, AwaitDial, false, tr);
      assert o.actions == [Sleep(c.reconnectDelay)] + Connect(c) + o'.actions;
      assert Connect(c) + o.actions == FailedAttempts(c, n) + Connect(c) by {
        assert FailedAttempts(c, n) == Connect(c) + [Sleep(c.reconnectDelay)] + FailedAttempts(c, n - 1);
      }
      assert Run(c, unpack, AwaitDial, false, tr).consumed == n;
    }
  }

  /** The sleeps among the actions. */
  function Sleeps(acts: seq<Action>): (n: nat)
    ensures n <= |acts|
  {
    if |acts| == 0 then 0
    else (if acts[0].Sleep? then 1 else 0) + Sleeps(acts[1..])
  }

  lemma {:induction false} SleepsAppend(a: seq<Action>, b: seq<Action>)
    ensures Sleeps(a + b) == Sleeps(a) + Sleeps(b)
    decreases |a|
  {
    if |a| > 0 {
      assert (a + b)[1..] == a[1..] + b;
      SleepsAppend(a[1..], b);
    } else {
      assert a + b == b;
    }
  }

  lemma {:induction false} NoSleeps(acts: seq<Action>)
    requires forall k :: 0 <= k < |acts| ==> !acts[k].Sleep?
    ensures Sleeps(acts) == 0
    decreases |acts|
  {
    if |acts| > 0 {
      NoSleeps(acts[1..]);
    }
  }

  /** The generator sleeps only in the failure handler, which it enters once per failed
      dial or recv: so it never sleeps more often than it has consumed events, plus the
      one sleep still owed when it starts inside the handler. */
  lemma {:induction false} SleepOncePerFailure(c: Config, unpack: seq<byte> -> Option<Payload>,
                                               ph: Phase, stopped: bool, tr: seq<Event>)
    ensures var o := Run(c, unpack, ph, stopped, tr);
            Sleeps(o.actions) <= o.consumed + (if ph == Failure then 1 else 0)
    decreases |tr|, Rank(ph)
  {
    match ph
    case Top =>
      if !stopped && StopsNext(tr) {
        SleepOncePerFailure(c, unpack, Top, true, tr[1..]);
      } else if !stopped {
        var o' := Run(c, unpack, AwaitDial, false, tr);
        SleepOncePerFailure(c, unpack, AwaitDial, false, tr);
        SleepsAppend(Connect(c), o'.actions);
        NoSleeps(Connect(c));
      }
    case InnerHead =>
      if !stopped && StopsNext(tr) {
        SleepOncePerFailure(c, unpack, InnerHead, true, tr[1..]);
      } else if !stopped {
        var o' := Run(c, unpack, AwaitRecv, false, tr);
        SleepOncePerFailure(c, unpack, AwaitRecv, false, tr);
        SleepsAppend([Recv], o'.actions);
        NoSleeps([Recv]);
      }
    case Failure =>
      if !stopped {
        var o' := Run(c, unpack, Top, false, tr);
        SleepOncePerFailure(c, unpack, Top, false, tr);
        SleepsAppend([Sleep(c.reconnectDelay)], o'.actions);
      }
    case AwaitDial =>
      if |tr| > 0 && !tr[0].RecvResult? {
        var ph' := if tr[0].StopSet? then AwaitDial else if tr[0].ok then InnerHead else Failure;
        SleepOncePerFailure(c, unpack, ph', stopped || tr[0].StopSet?, tr[1..]);
      }
    case AwaitRecv =>
      if |tr| > 0 && !tr[0].DialResult? {
        var ph' := NextAfterRecv(c, unpack, tr[0]);
        var st' := stopped || tr[0].StopSet?;
        var o' := Run(c, unpack, ph', st', tr[1..]);
        SleepOncePerFailure(c, unpack, ph', st', tr[1..]);
        if tr[0].RecvResult? && tr[0].r.Message? && unpack(StripTopic(tr[0].r.bytes, |c.topic|)).Some? {
          var d := unpack(StripTopic(tr[0].r.bytes, |c.topic|)).value;
          assert Run(c, unpack, AwaitRecv, stopped, tr) == Consume(Emit([Yield(d)], o'));
          SleepsAppend([Yield(d)], o'.actions);
        } else {
          assert Run(c, unpack, AwaitRecv, stopped, tr) == Consume(o');
        }
      }
  }

  /** Called from the top, the generator yields exactly the decoded payloads of the frames
      it received and sleeps at most once per event it consumed. */
  lemma StreamYieldsAndSleeps(c: Config, unpack: seq<byte> -> Option<Payload>, tr: seq<Event>)
    ensures var o := Stream(c, unpack, tr);
            Yields(o.actions) == Decoded(c, unpack, tr[..o.consumed]) && Sleeps(o.actions) <= o.consumed
  {
    YieldsAreDecodedFrames(c, unpack, Top, false, tr);
    SleepOncePerFailure(c, unpack, Top, false, tr);
  }

  // ---------------------------------------------------------------- stopping

  /** The actions a stopped generator may still take: none but yielding. */
  predicate OnlyYields(acts: seq<Action>)
  {
    forall k :: 0 <= k < |acts| ==> acts[k].Yield?
  }

  /** The stop event is checked before every connection attempt, before every recv and in
      the failure handler: once it is set the generator makes no further call (no socket,
      dial, recv or sleep) and yields at most the one frame a recv already in progress
      returns; from any check it returns at once. */
  lemma {:induction false} StopQuiesces(c: Config, unpack: seq<byte> -> Option<Payload>,
                                        ph: Phase, tr: seq<Event>)
    ensures var o := Run(c, unpack, ph, true, tr);
            && OnlyYields(o.actions)
            && |o.actions| <= (if ph == AwaitRecv then 1 else 0)
            && (o.end == Stopped || o.end == Exhausted || o.end == Halted)
            && (ph in {Top, InnerHead, Failure} ==> o == Outcome([], Stopped, 0))
    decreases |tr|, Rank(ph)
  {
    if |tr| > 0 && (ph == AwaitDial || ph == AwaitRecv) {
      var ph' := if ph == AwaitDial then
                   (if tr[0].StopSet? then AwaitDial else if tr[0].DialResult? && tr[0].ok then InnerHead else Failure)
                 else NextAfterRecv(c, unpack, tr[0]);
      StopQuiesces(c, unpack, ph', tr[1..]);
      if ph == AwaitRecv && tr[0].StopSet? {
        // a recv still pending: it may return one frame after the stop
        assert Run(c, unpack, ph, true, tr) == Consume(Run(c, unpack, AwaitRecv, true, tr[1..]));
      }
    }
  }

  // ---------------------------------------------------------------- a healthy session

  /** The frames the publisher sends for `ps` on `topic`, each received whole. */
  function Deliveries(topic: seq<byte>, pack: Payload -> seq<byte>, ps: seq<Payload>): (tr: seq<Event>)
    ensures |tr| == |ps|
  {
    if |ps| == 0 then [] else [RecvResult(Message(Frame(topic, pack(ps[0]))))] + Deliveries(topic, pack, ps[1..])
  }

  /** A recv followed by the yield of each payload. */
  function RecvYields(ps: seq<Payload>): (acts: seq<Action>)
    ensures |acts| == 2 * |ps|
  {
    if |ps| == 0 then [] else [Recv, Yield(ps[0])] + RecvYields(ps[1..])
  }

  /** Inside a connection, every published payload is yielded exactly once and in
      order, each after its own recv, with no sleep and no reconnect. */
  lemma {:induction false} SessionYieldsAll(c: Config, pack: Payload -> seq<byte>,
                                            unpack: seq<byte> -> Option<Payload>,
                                            ps: seq<Payload>, rest: seq<Event>)
    requires Codec(pack, unpack)
    ensures var o := Run(c, unpack, InnerHead, false, Deliveries(c.topic, pack, ps) + rest);
            var o' := Run(c, unpack, InnerHead, false, rest);
            o == Outcome(RecvYields(ps) + o'.actions, o'.end, |ps| + o'.consumed)
    decreases |ps|
  {
    if |ps| > 0 {
      var tr := Deliveries(c.topic, pack, ps) + rest;
      var tail := Deliveries(c.topic, pack, ps[1..]) + rest;
      var f := Frame(c.topic, pack(ps[0]));
      assert tr == [RecvResult(Message(f))] + tail;
      FrameRoundTrip(pack, unpack, c.topic, ps[0]);
      OneDelivery(c, unpack, ps[0], f, tail);
      SessionYieldsAll(c, pack, unpack, ps[1..], rest);
      var inner := Run(c, unpack, InnerHead, false, tail);
      var o' := Run(c, unpack, InnerHead, false, rest);
      assert [Recv, Yield(ps[0])] + inner.actions == RecvYields(ps) + o'.actions;
    } else {
      assert Deliveries(c.topic, pack, ps) + rest == rest;
    }
  }

  /** One received frame that unpacks to `d`: a recv, the yield of `d`, and back to the
      head of the inner loop. */
  lemma OneDelivery(c: Config, unpack: seq<byte> -> Option<Payload>, d: Payload, f: seq<byte>,
                    tail: seq<Event>)
    requires unpack(StripTopic(f, |c.topic|)) == Some(d)
    ensures var o := Run(c, unpack, InnerHead, false, [RecvResult(Message(f))] + tail);
            var o' := Run(c, unpack, InnerHead, false, tail);
            o == Outcome([Recv, Yield(d)] + o'.actions, o'.end, o'.consumed + 1)
  {
    var tr := [RecvResult(Message(f))] + tail;
    assert tr[1..] == tail;
    var o' := Run(c, unpack, InnerHead, false, tail);
    assert Run(c, unpack, AwaitRecv, false, tr) == Consume(Emit([Yield(d)], o'));
    assert [Recv] + ([Yield(d)] + o'.actions) == [Recv, Yield(d)] + o'.actions;
  }

  /** A publisher that is reachable and a connection closed once: every payload of both
      sessions is yielded in order, the only extra calls being the second connection
      attempt, and no sleep. */
  lemma ReconnectAfterClose(c: Config, pack: Payload -> seq<byte>, unpack: seq<byte> -> Option<Payload>,
                            ps1: seq<Payload>, ps2: seq<Payload>)
    requires Codec(pack, unpack)
    ensures var tr := [DialResult(true)] + Deliveries(c.topic, pack, ps1)
                      + [RecvResult(Closed), DialResult(true)] + Deliveries(c.topic, pack, ps2);
            var o := Stream(c, unpack, tr);
            && o.actions == Connect(c) + RecvYields(ps1) + [Recv] + Connect(c) + RecvYields(ps2) + [Recv]
            && o.end == Exhausted
  {
    var d1, d2 := Deliveries(c.topic, pack, ps1), Deliveries(c.topic, pack, ps2);
    var t2 := [DialResult(true)] + d2;
    var tail1 := [RecvResult(Closed)] + t2;
    var tr := [DialResult(true)] + d1 + [RecvResult(Closed), DialResult(true)] + d2;
    assert tr == [DialResult(true)] + (d1 + tail1);
    assert tail1[1..] == t2;
    var s2 := Run(c, unpack, AwaitDial, false, t2);
    var s1 := Run(c, unpack, AwaitDial, false, [DialResult(true)] + (d1 + tail1));
    assert s2.actions == RecvYields(ps2) + [Recv] && s2.end == Exhausted by {
      SecondSession(c, pack, unpack, ps2);
    }
    assert s1.actions == RecvYields(ps1) + [Recv] + Connect(c) + s2.actions && s1.end == s2.end by {
      FirstSession(c, pack, unpack, ps1, tail1);
    }
    TopStep(c, unpack, tr);
    Regroup(Connect(c), RecvYields(ps1), [Recv], Connect(c), RecvYields(ps2), [Recv]);
  }

  /** With no stop pending, the generator as called starts with a connection attempt. */
  lemma TopStep(c: Config, unpack: seq<byte> -> Option<Payload>, tr: seq<Event>)
    requires !StopsNext(tr)
    ensures Stream(c, unpack, tr) == Emit(Connect(c), Run(c, unpack, AwaitDial, false, tr))
  {
  }

  lemma Regroup<T>(p: seq<T>, q: seq<T>, r: seq<T>, u: seq<T>, v: seq<T>, w: seq<T>)
    ensures p + (q + r + u + (v + w)) == p + q + r + u + v + w
  {
  }

  /** Across the reconnect, the items yielded are the payloads of both sessions in
      publication order. */
  lemma ReconnectYieldsBoth(c: Config, pack: Payload -> seq<byte>, unpack: seq<byte> -> Option<Payload>,
                            ps1: seq<Payload>, ps2: seq<Payload>)
    requires Codec(pack, unpack)
    ensures var tr := [DialResult(true)] + Deliveries(c.topic, pack, ps1)
                      + [RecvResult(Closed), DialResult(true)] + Deliveries(c.topic, pack, ps2);
            Yields(Stream(c, unpack, tr).actions) == ps1 + ps2
  {
    ReconnectAfterClose(c, pack, unpack, ps1, ps2);
    TwoSessionYields(c, ps1, ps2);
  }

  /** Dial, the frames of `ps`, then a recv still pending when the trace ends. */
  lemma SecondSession(c: Config, pack: Payload -> seq<byte>, unpack: seq<byte> -> Option<Payload>,
                      ps: seq<Payload>)
    requires Codec(pack, unpack)
    ensures var o := Run(c, unpack, AwaitDial, false, [DialResult(true)] + Deliveries(c.topic, pack, ps));
            o.actions == RecvYields(ps) + [Recv] && o.end == Exhausted
  {
    var d := Deliveries(c.topic, pack, ps);
    assert ([DialResult(true)] + d)[1..] == d;
    assert d + [] == d;
    SessionYieldsAll(c, pack, unpack, ps, []);
    assert Run(c, unpack, InnerHead, false, []) == Outcome([Recv], Exhausted, 0);
  }

  /** Dial, the frames of `ps`, then `Closed` and an immediate new attempt. */
  lemma FirstSession(c: Config, pack: Payload -> seq<byte>, unpack: seq<byte> -> Option<Payload>,
                     ps: seq<Payload>, tail: seq<Event>)
    requires Codec(pack, unpack) && |tail| > 0 && tail[0] == RecvResult(Closed) && !StopsNext(tail[1..])
    ensures var o := Run(c, unpack, AwaitDial, false, [DialResult(true)] + (Deliveries(c.topic, pack, ps) + tail));
            var o' := Run(c, unpack, AwaitDial, false, tail[1..]);
            o.actions == RecvYields(ps) + [Recv] + Connect(c) + o'.actions && o.end == o'.end
  {
    var x := Deliveries(c.topic, pack, ps) + tail;
    var inner := Run(c, unpack, InnerHead, false, x);
    var o1 := Run(c, unpack, InnerHead, false, tail);
    var o' := Run(c, unpack, AwaitDial, false, tail[1..]);
    DialOk(c, unpack, x);
    assert inner.actions == RecvYields(ps) + o1.actions && inner.end == o1.end by {
      SessionYieldsAll(c, pack, unpack, ps, tail);
    }
    assert o1.actions == [Recv] + (Connect(c) + o'.actions) && o1.end == o'.end by {
      ClosedAtInnerHead(c, unpack, tail);
    }
    Assoc4(RecvYields(ps), [Recv], Connect(c), o'.actions);
  }

  /** A successful dial leads to the head of the inner loop. */
  lemma DialOk(c: Config, unpack: seq<byte> -> Option<Payload>, x: seq<Event>)
    ensures Run(c, unpack, AwaitDial, false, [DialResult(true)] + x) == Consume(Run(c, unpack, InnerHead, false, x))
  {
    assert ([DialResult(true)] + x)[1..] == x;
  }

  /** At the head of the inner loop, a recv answered by `Closed` leads straight to a new
      connection attempt. */
  lemma ClosedAtInnerHead(c: Config, unpack: seq<byte> -> Option<Payload>, tail: seq<Event>)
    requires |tail| > 0 && tail[0] == RecvResult(Closed) && !StopsNext(tail[1..])
    ensures var o1 := Run(c, unpack, InnerHead, false, tail);
            var o' := Run(c, unpack, AwaitDial, false, tail[1..]);
            o1.actions == [Recv] + (Connect(c) + o'.actions) && o1.end == o'.end
  {
    assert Run(c, unpack, InnerHead, false, tail) == Emit([Recv], Run(c, unpack, AwaitRecv, false, tail));
    assert tail == [RecvResult(Closed)] + tail[1..];
    ClosedRedialsAtOnce(c, unpack, tail[1..]);
  }

  lemma Assoc4<T>(p: seq<T>, q: seq<T>, r: seq<T>, u: seq<T>)
    ensures p + (q + (r + u)) == p + q + r + u
  {
  }

  /** The items among the calls of two sessions are the payloads of both, in order. */
  lemma TwoSessionYields(c: Config, ps1: seq<Payload>, ps2: seq<Payload>)
    ensures Yields(Connect(c) + RecvYields(ps1) + [Recv] + Connect(c) + RecvYields(ps2) + [Recv]) == ps1 + ps2
  {
    var cn, r1, r2 := Connect(c), RecvYields(ps1), RecvYields(ps2);
    assert Yields(cn) == [] && Yields([Recv]) == [] by {
      NoYields(cn);
      NoYields([Recv]);
    }
    var a1 := cn + r1;
    assert Yields(a1) == ps1 by {
      YieldsAppend(cn, r1);
      YieldsOfSession(ps1);
    }
    var a2 := a1 + [Recv] + cn;
    assert Yields(a2) == ps1 by {
      YieldsAppend(a1, [Recv]);
      YieldsAppend(a1 + [Recv], cn);
    }
    var a3 := a2 + r2;
    assert Yields(a3) == ps1 + ps2 by {
      YieldsAppend(a2, r2);
      YieldsOfSession(ps2);
    }
    YieldsAppend(a3, [Recv]);
  }

  lemma {:induction false} YieldsOfSession(ps: seq<Payload>)
    ensures Yields(RecvYields(ps)) == ps
    decreases |ps|
  {
    if |ps| > 0 {
      YieldsOfSession(ps[1..]);
      YieldsAppend([Recv, Yield(ps[0])], RecvYields(ps[1..]));
      assert Yields([Recv, Yield(ps[0])]) == [ps[0]] by {
        assert [Recv, Yield(ps[0])][1..] == [Yield(ps[0])];
        assert [Yield(ps[0])][1..] == [];
      }
    }
  }
}

=== FILE: wire.dfy ===
/** The wire layer between the signal processor and its subscribers
    (signal_processing/src/signal_processing.py, app/src/socket_stream.py): the two payload
    dictionaries, the topic names, and the framing `topic + payload` with no delimiter.
    The msgpack encoding itself is a pair of functions the model takes as parameters. */
module Wire {
  import opened Common
  import opened Leads

  // ---------------------------------------------------------------- payloads

  /** `serialize_raw_sample`: exactly the keys timestamp, RA, LA, LL, the electrodes taken
      from `voltages[0]`, `[1]`, `[2]`. */
  function RawPayload(timestamp: real, voltages: Electrodes): (p: Payload)
    ensures p.Keys == {"timestamp", "RA", "LA", "LL"}
  {
    map["timestamp" := Num(timestamp),
        "RA" := Num(voltages.ra),
        "LA" := Num(voltages.la),
        "LL" := Num(voltages.ll)]
  }

  /** A raw record as a subscriber reads it back. */
  datatype RawRecord = RawRecord(timestamp: real, voltages: Electrodes)

  /** Reads a raw record back from a payload; `None` when a field is missing or not a
      number. */
  function DecodeRaw(p: Payload): (r: Option<RawRecord>)
    ensures r.Some? <==> forall k :: k in {"timestamp", "RA", "LA", "LL"} ==> k in p && p[k].Num?
  {
    if && "timestamp" in p && p["timestamp"].Num?
       && "RA" in p && p["RA"].Num? && "LA" in p && p["LA"].Num? && "LL" in p && p["LL"].Num?
    then Some(RawRecord(p["timestamp"].x, Electrodes(p["RA"].x, p["LA"].x, p["LL"].x)))
    else None
  }

  /** The raw payload carries the sample unchanged. */
  lemma RawRoundTrip(timestamp: real, voltages: Electrodes)
    ensures DecodeRaw(RawPayload(timestamp, voltages)) == Some(RawRecord(timestamp, voltages))
  {
  }

  /** A dictionary of reals as a payload object (`{k: float(v) for k, v in d.items()}`). */
  function NumObject(d: map<string, real>): (o: Value)
    ensures o.Obj? && o.fields.Keys == d.Keys
  {
    Obj(map k | k in d :: Num(d[k]))
  }

  /** `serialize_filtered_leads`: "timestamp" and "leads", whose keys and values are
      those of the derived leads, plus "bpm" exactly when an estimate is given. */
  function FilteredPayload(timestamp: real, leads: map<string, real>, bpm: Option<real>): (p: Payload)
    ensures "timestamp" in p && "leads" in p
    ensures "bpm" in p <==> bpm.Some?
    ensures p.Keys == {"timestamp", "leads"} + (if bpm.Some? then {"bpm"} else {})
    ensures p["leads"].Obj? && p["leads"].fields.Keys == leads.Keys
  {
    var base := map["timestamp" := Num(timestamp), "leads" := NumObject(leads)];
    if bpm.Some? then base["bpm" := Num(bpm.value)] else base
  }

  /** A filtered record as a subscriber reads it back. */
  datatype FilteredRecord = FilteredRecord(timestamp: real, leads: map<string, real>, bpm: Option<real>)

  /** All fields of a payload object are numbers. */
  predicate AllNumbers(fields: map<string, Value>)
  {
    forall k :: k in fields ==> fields[k].Num?
  }

  /** Reads a filtered record back; `None` when timestamp or leads are missing or
      ill-typed, or "bpm" is present but not a number. */
  function DecodeFiltered(p: Payload): (r: Option<FilteredRecord>)
    ensures r.Some? <==> && "timestamp" in p && p["timestamp"].Num?
                         && "leads" in p && p["leads"].Obj? && AllNumbers(p["leads"].fields)
                         && ("bpm" in p ==> p["bpm"].Num?)
    ensures r.Some? ==> (r.value.bpm.Some? <==> "bpm" in p)
  {
    if && "timestamp" in p && p["timestamp"].Num?
       && "leads" in p && p["leads"].Obj? && AllNumbers(p["leads"].fields)
       && ("bpm" in p ==> p["bpm"].Num?)
    then
      var fields := p["leads"].fields;
      var leads := map k | k in fields :: fields[k].x;
      Some(FilteredRecord(p["timestamp"].x, leads, if "bpm" in p then Some(p["bpm"].x) else None))
    else None
  }

  /** The filtered payload carries timestamp, leads and estimate unchanged. */
  lemma FilteredRoundTrip(timestamp: real, leads: map<string, real>, bpm: Option<real>)
    ensures DecodeFiltered(FilteredPayload(timestamp, leads, bpm))
            == Some(FilteredRecord(timestamp, leads, bpm))
  {
    var p := FilteredPayload(timestamp, leads, bpm);
    var fields := p["leads"].fields;
    assert fields == map k | k in leads :: Num(leads[k]);
    assert AllNumbers(fields);
    var back := map k | k in fields :: fields[k].x;
    assert back == leads;
  }

  // ---------------------------------------------------------------- topics and frames

  /** `b"ecg.raw"`. */
  const RawTopicName: string := "ecg.raw"
  /** `b"ecg.filtered"`. */
  const FilteredTopicName: string := "ecg.filtered"

  function RawTopic(): (t: seq<byte>)
    ensures |t| == 7
  {
    assert IsAscii(RawTopicName);
    AsciiBytes(RawTopicName)
  }

  function FilteredTopic(): (t: seq<byte>)
    ensures |t| == 12
  {
    assert IsAscii(FilteredTopicName);
    AsciiBytes(FilteredTopicName)
  }

  /** The bytes sent for one publication: the topic immediately followed by the encoded
      payload, no delimiter. */
  function Frame(topic: seq<byte>, payload: seq<byte>): (f: seq<byte>)
    ensures |f| == |topic| + |payload|
    ensures topic <= f
  {
    topic + payload
  }

  /** `msg[len(topic):]`: Python slicing, so a frame shorter than the topic strips to the
      empty byte string rather than failing. */
  function StripTopic(frame: seq<byte>, n: nat): (payload: seq<byte>)
    ensures |payload| == if n <= |frame| then |frame| - n else 0
    ensures n <= |frame| ==> frame == frame[..n] + payload
  {
    if n <= |frame| then frame[n..] else []
  }

  /** Stripping the topic's length from a frame recovers exactly the payload bytes. */
  lemma StripFrame(topic: seq<byte>, payload: seq<byte>)
    ensures StripTopic(Frame(topic, payload), |topic|) == payload
  {
    assert (topic + payload)[|topic|..] == payload;
  }

  /** A subscription to `sub` receives a frame when `sub` is a byte prefix of it, as in
      NNG's pub/sub topic filtering. */
  predicate Subscribed(sub: seq<byte>, frame: seq<byte>)
  {
    sub <= frame
  }

  /** Position 4 tells the two topics apart ('r' against 'f'), so neither is a prefix of
      the other. */
  lemma TopicsPrefixFree()
    ensures !(RawTopic() <= FilteredTopic()) && !(FilteredTopic() <= RawTopic())
    ensures RawTopic()[4] as int == 'r' as int && FilteredTopic()[4] as int == 'f' as int
  {
    assert RawTopic()[4] as int == RawTopicName[4] as int;
    assert FilteredTopic()[4] as int == FilteredTopicName[4] as int;
  }

  /** A raw-topic subscriber never receives a filtered frame, and vice versa, whatever
      the payload bytes. */
  lemma SubscriptionsSeparate(payload: seq<byte>)
    ensures Subscribed(RawTopic(), Frame(RawTopic(), payload))
    ensures !Subscribed(RawTopic(), Frame(FilteredTopic(), payload))
    ensures Subscribed(FilteredTopic(), Frame(FilteredTopic(), payload))
    ensures !Subscribed(FilteredTopic(), Frame(RawTopic(), payload))
  {
    TopicsPrefixFree();
    var fr := Frame(FilteredTopic(), payload);
    var rf := Frame(RawTopic(), payload);
    assert fr[4] == FilteredTopic()[4];
    assert rf[4] == RawTopic()[4];
  }

  // ---------------------------------------------------------------- encoding

  /** msgpack as used here: `unpack` reads back what `pack` wrote. */
  ghost predicate Codec(pack: Payload -> seq<byte>, unpack: seq<byte> -> Option<Payload>)
  {
    forall p :: unpack(pack(p)) == Some(p)
  }

  /** A subscriber that strips its topic from a frame and unpacks the rest recovers the
      published payload. */
  lemma FrameRoundTrip(pack: Payload -> seq<byte>, unpack: seq<byte> -> Option<Payload>,
                       topic: seq<byte>, p: Payload)
    requires Codec(pack, unpack)
    ensures unpack(StripTopic(Frame(topic, pack(p)), |topic|)) == Some(p)
  {
    StripFrame(topic, pack(p));
  }
}
